=== FILE: README.md ===
# Forum request handlers: subscription payments, query debugging, mark-as-read

This project models three request handlers of a forum platform and proves
properties of them. All three are modelled apart from the database, the
session machinery and the HTML they sit in.

- **The paid-subscription notification script** (`subscriptions.php`, module
  `Subscriptions`). It works through these steps:
  - Picks the first payment-gateway adapter that recognises the notification.
  - Coerces and checks the subscription and member ids.
  - Loads the member, the plan and the subscription log row.
  - Handles the notification, in this order of precedence: a refund; a
    payment or subscription renewal; a cancellation; anything else is ignored.
  - A one-off payment consumes exactly one pending detail. It may also
    decrement the `payments_pending` counter.
  - A flexible plan is matched by price against its duration table. A fixed
    plan accepts any non-zero amount at least its `fixed` price.

  Each gateway adapter is the record of its answers for the notification.
  The database is three maps. The calls into helpers the script cannot see
  (`handleRefund`, `addSubscription`, `updateNonrecurrent`, `emailAdmins`,
  `log_error`) are recorded as steps of an outcome, in the order the script
  makes them. `Reconcile` is the decision function. `ProcessNotification`
  is the script written step by step, with its loops, and is proved equal
  to it. The in-place update of `$subscription_info` is the class
  `SubscriptionLog`.
- **The query-debugging admin page** (`AdminDebug.controller.php`, module
  `AdminDebug`). It covers:
  - the `view_queries` toggle;
  - the `qq` index;
  - the indentation clean-up of each logged query: two loops over an array
    of lines;
  - the SELECT and temporary-table test that decides which queries get an
    EXPLAIN link;
  - which query is explained;
  - the `;sesc=` rewrite that `action_viewadminfile` applies to admin files.
- **The mark-as-read controller** (`Markasread.controller.php`, module
  `MarkRead`). It covers the `_dispatch` switch and the four handlers.
  - Each handler answers with a redirect and the `markBoardsRead` /
    `markTopicsRead` calls it makes.
  - The session (`id_msg_last_visit`, `old_url`, `topicseen_cache`) is the
    class `Session`.
  - The controller's two private query-string fields are the class
    `MarkReadController`.
  - The database helpers' answers are fields of the `Forum` value.

`Strings` holds the PHP string primitives these handlers use: `explode` /
`implode` with their round trips, `strpos`, `trim`, and decimal rendering.
`Wrappers` holds `Option`.

The flexible scan at `subscriptions.php:182-188` has no `break`, so when
several durations share the paid price the last one in table order wins
(`MatchedDurationIsLastMatch`, `FlexibleExamples`).

## Model

| member | source | states |
|---|---|---|
| Subscriptions.ToInt | subscriptions.php:77-81 | a missing id coerces to 0; a present one is kept |
| Subscriptions.NumLength | subscriptions.php:131 | the plan's `num_length`, present exactly when the plan has an entry |
| Subscriptions.EmptyString | subscriptions.php:73 | `empty()` holds for the empty string; a one-character code is empty exactly when it is `"0"`; no longer string is empty |
| Subscriptions.ErrorReport | subscriptions.php:251-276 | the report is the admins' mail then the error log when `paid_email` is set, and the error log alone when it is not |
| Subscriptions.Fail | subscriptions.php:251-276 | a failure keeps the steps already done, follows them with exactly the error report, and has that error as its verdict |
| Subscriptions.FirstValid | subscriptions.php:61-71 | the chosen gateway is valid and every earlier one is not; there is none exactly when no gateway is valid |
| Subscriptions.SelectGateway | subscriptions.php:61-71 | the `foreach` with `break` picks the first valid gateway |
| Subscriptions.NoGatewayFailsBeforeLookups | subscriptions.php:61-74 | with no valid gateway the result is the unknown-transaction error, and no member, plan or log lookup happens |
| Subscriptions.ZeroMemberFailsBeforeLookups | subscriptions.php:77-85 | a member id that coerces to 0 ends in the empty-member error before any lookup |
| Subscriptions.MissingMemberFails | subscriptions.php:88-92 | an unknown member fails right after the member lookup, with the member-not-found report |
| Subscriptions.MissingPlanFails | subscriptions.php:94-106 | a known member with an unknown plan fails after the plan lookup, with the subscription-not-found report |
| Subscriptions.MissingLogFails | subscriptions.php:108-124 | without a log row the run fails after the three lookups with the log-not-found report, so nothing is reconciled |
| Subscriptions.ProcessNotification | subscriptions.php:61-244 | the script, run step by step, yields exactly the outcome of the decision function `Reconcile` |
| Subscriptions.Reconcile | subscriptions.php:61-244 | the script as one decision function; it always performs at least one step |
| Subscriptions.RunEnds | subscriptions.php:61-244 | every run ends by logging its error when it fails; otherwise it starts with the three lookups of a member, plan and log row that all exist, and ends with `close()` |
| Subscriptions.SettledRunFoundRecords | subscriptions.php:88-124 | a run that settles anything found its member, plan and log row, and starts with their three lookups |
| Subscriptions.Transaction | subscriptions.php:128-241 | only a payment or subscription can fail, and a failure ends by logging its error |
| Subscriptions.Purchase | subscriptions.php:148-224 | a purchase fails exactly for a one-off payment with nothing pending, with the outstanding-payment error logged last; otherwise the verdict says whether the plan accepted the amount |
| Subscriptions.HandleTransaction | subscriptions.php:128-241 | the transaction branches, on a mutable log record, yield the outcome `Transaction` describes |
| Subscriptions.ClassificationOrder | subscriptions.php:128-241 | refund is checked first, then payment or subscription, then cancellation, else ignored; each verdict holds exactly under its condition |
| Subscriptions.IgnoredChangesNothing | subscriptions.php:232-244 | an unrecognised transaction performs only the lookups and `close()` |
| Subscriptions.RefundTouchesNoPendingOrCost | subscriptions.php:128-146 | a refund hands the row to the refund handler and may send a receipt; it never consumes a pending detail or adds a subscription |
| Subscriptions.RecurringIgnoresPending | subscriptions.php:148-174 | for a recurring payment, replacing the pending list and counter changes nothing in the outcome, and no log update is stored |
| Subscriptions.OneOffWithoutPendingFails | subscriptions.php:155-159 | a one-off payment with nothing pending ends in the outstanding-payment error |
| Subscriptions.ConsumeFirst | subscriptions.php:163-171 | the first pending entry is removed and the rest keep their order; an empty remainder is stored blank; the counter drops by one exactly for a payback with a non-zero counter, and never below 0 |
| Subscriptions.SubscriptionLog.ConsumePending | subscriptions.php:157-171 | the in-place capture reports whether anything was pending and leaves the record as `ConsumeFirst` describes |
| Subscriptions.OneOffConsumesFirstPending | subscriptions.php:155-174 | a one-off payment stores the log row with its first pending detail consumed, right after the lookups, and stores it only once |
| Subscriptions.ReplayConsumesAgain | subscriptions.php:155-173 | delivering the same one-off notification again consumes the next pending detail, or fails when none is left |
| Subscriptions.DurationCode | subscriptions.php:187 | one character exactly when the key is non-empty (else empty); a lower-case first letter is shifted to its upper-case letter, any other first character is kept as it is |
| Subscriptions.MatchedDuration | subscriptions.php:177-188 | no duration is found exactly when no non-`fixed` entry has the paid price |
| Subscriptions.MatchedDurationIsLastMatch | subscriptions.php:182-188 | the found duration is that of a matching entry after which no entry matches (the last match wins) |
| Subscriptions.FindDuration | subscriptions.php:179-188 | the scan loop with `continue` computes `MatchedDuration` |
| Subscriptions.FlexibleAcceptance | subscriptions.php:177-196 | a flexible plan adds a subscription exactly when some duration has the paid price, and uses the last such duration |
| Subscriptions.FlexibleExamples | subscriptions.php:182-188 | year 100 / month 10 gives Y for 100 and M for 10, and nothing for 99 or 0; a price shared by month and week gives W |
| Subscriptions.CostOf | subscriptions.php:199 | a price is found exactly when the key is present, and it is that entry's price |
| Subscriptions.FixedAccepted | subscriptions.php:197-202 | a zero amount is never accepted; without a `fixed` price every non-zero amount is |
| Subscriptions.Acceptance | subscriptions.php:177-208 | a duration is passed to `addSubscription` exactly for a flexible plan; a fixed plan accepts exactly under the fixed-price test |
| Subscriptions.FixedAcceptance | subscriptions.php:197-208 | a fixed plan adds a subscription exactly when the amount is non-zero and at least the `fixed` price |
| Subscriptions.FixedExamples | subscriptions.php:197-208 | at price 50, amounts 60 and 50 are accepted, and 49 and 0 are not |
| Subscriptions.PurchaseSteps | subscriptions.php:148-224 | on the purchase path the steps are the lookups, the pending capture for a one-off payment only, the grant exactly on acceptance, the receipt, then `close()`; the verdict records whether a subscription was added |
| Subscriptions.PurchaseTraceSteps | subscriptions.php:190-224 | in a purchase trace the grant step appears exactly when there is a subscription to add, and the receipt exactly when it is added and `paid_email` is 2 |
| Subscriptions.Receipt | subscriptions.php:211 | at most one mail to the admins, sent exactly when `paid_email` is 2 and the handler asks for a receipt |
| Subscriptions.ReceiptOnlyWhenAdded | subscriptions.php:190-224 | on the purchase path a subscription is added exactly on acceptance, and the receipt is sent exactly when one is added and `paid_email` is 2 |
| AdminDebug.Toggled | sources/admin/AdminDebug.controller.php:62 | the toggle yields 0 or 1, and 0 exactly from 1 |
| AdminDebug.ToggleTwiceRestores | sources/admin/AdminDebug.controller.php:62 | toggling twice from 0 or 1 restores the value |
| AdminDebug.DebugSession.Hide | sources/admin/AdminDebug.controller.php:60-68 | `sa=hide` flips `view_queries`; it redirects to the forum index when `old_url` is the query page, else back to `old_url` |
| AdminDebug.QueryIdOf | sources/admin/AdminDebug.controller.php:70 | no `qq` gives a negative index; a `qq` selects index `qq - 1` |
| AdminDebug.LinkQq | sources/admin/AdminDebug.controller.php:143 | the link's `qq` is at least 1 and selects query `q` again |
| AdminDebug.LinkRoundTrip | sources/admin/AdminDebug.controller.php:70-143 | the link of query `q` carries `qq = q + 1`, which selects query `q`; no `qq` selects a negative index |
| AdminDebug.WithoutCR | sources/admin/AdminDebug.controller.php:100 | the result has no carriage return, and text without one is returned unchanged; `WithoutCRAppend` and `WithoutCRKeepsOthers` fix the rest |
| AdminDebug.WithoutCRAppend | sources/admin/AdminDebug.controller.php:100 | dropping carriage returns distributes over concatenation, so the kept characters keep their order |
| AdminDebug.WithoutCRKeepsOthers | sources/admin/AdminDebug.controller.php:100 | every character other than a carriage return survives, as often as it occurs |
| AdminDebug.TrimLeadingNewlines | sources/admin/AdminDebug.controller.php:100 | the result is a suffix of the input that does not start with a newline, and every character removed is a newline |
| AdminDebug.Cleaned | sources/admin/AdminDebug.controller.php:100 | the cleaned query has no carriage return and no leading newline; a query with neither is unchanged |
| AdminDebug.CleanedStripsOnlyLeadingNewlines | sources/admin/AdminDebug.controller.php:100 | after the carriage returns are dropped, only a run of newlines is removed, from the front |
| AdminDebug.LeadingTabs | sources/admin/AdminDebug.controller.php:105 | the count covers exactly the run of tabs at the start of the line |
| AdminDebug.IndentStep | sources/admin/AdminDebug.controller.php:104-108 | from 0 the step takes the line's indent; otherwise it keeps the smaller of the two |
| AdminDebug.MinIndent | sources/admin/AdminDebug.controller.php:102-108 | the computed indent never exceeds the last line's leading tabs |
| AdminDebug.MinIndentZeroIffLastUnindented | sources/admin/AdminDebug.controller.php:102-110 | the computed indent is 0 exactly when the last line has no leading tab, and then no line loses anything |
| AdminDebug.MinIndentWhenAllIndented | sources/admin/AdminDebug.controller.php:102-108 | when every line is indented, the computed indent is the least leading-tab count |
| AdminDebug.Cut | sources/admin/AdminDebug.controller.php:110 | the result is what follows the first `k` characters, or empty when `k` is past the end |
| AdminDebug.AllIndentedLosesOnlyTabs | sources/admin/AdminDebug.controller.php:102-110 | when every line is indented, each line loses exactly that many characters, all of them tabs |
| AdminDebug.IndentFixed | sources/admin/AdminDebug.controller.php:109-110 | the number of lines is kept |
| AdminDebug.IndentFixedAvoids | sources/admin/AdminDebug.controller.php:109-110 | cutting the lines adds no character to any of them |
| AdminDebug.Normalize | sources/admin/AdminDebug.controller.php:100-111 | the clean-up, the split into lines, the indent cut and the join back; its contents are stated by `NormalizeKeepsLines` and `NormalizeDropsCR` |
| AdminDebug.NormalizeKeepsLines | sources/admin/AdminDebug.controller.php:100-111 | the lines of the normalised query are the cleaned query's lines with the indent cut, same number and same order |
| AdminDebug.NormalizeUnindented | sources/admin/AdminDebug.controller.php:100-111 | when the last line has no leading tab the indentation step changes nothing: the result is the cleaned query |
| AdminDebug.NormalizeDropsCR | sources/admin/AdminDebug.controller.php:100-111 | the normalised query has no carriage return |
| AdminDebug.FixIndent | sources/admin/AdminDebug.controller.php:102-110 | the indent loop and the in-place rewrite of the line array compute the cut lines |
| AdminDebug.NormalizeQuery | sources/admin/AdminDebug.controller.php:100-111 | the clean-up as the page does it yields the normalised query |
| AdminDebug.SelectText | sources/admin/AdminDebug.controller.php:117-129 | a query that starts with SELECT once trimmed is its own SELECT part; otherwise the INSERT extraction supplies it when it matches, else the CREATE TEMPORARY TABLE extraction, and there is none exactly when neither matches |
| AdminDebug.IsExplainable | sources/admin/AdminDebug.controller.php:117-139 | a query is explainable when it has a SELECT part naming no temporary table; `PlainSelectIsExplainable` and `TempTableNeverExplainable` state its two sides |
| AdminDebug.NamesTempTable | sources/admin/AdminDebug.controller.php:131-139 | the scan with `break` reports a temporary table exactly when the SELECT part names one |
| AdminDebug.ClassifyQuery | sources/admin/AdminDebug.controller.php:117-139 | a query is a select query exactly when it has a SELECT part that names none of the four temporary tables; `$select` is that part |
| AdminDebug.PlainSelectIsExplainable | sources/admin/AdminDebug.controller.php:117-139 | a query starting with SELECT that names no temporary table is explainable as itself |
| AdminDebug.TempTableNeverExplainable | sources/admin/AdminDebug.controller.php:131-139 | a SELECT part naming a temporary table is never explainable |
| AdminDebug.Explanation | sources/admin/AdminDebug.controller.php:117-139 | a logged query has an explanation exactly when its normalised text is explainable, and it is that text's SELECT part |
| AdminDebug.ExplainTarget | sources/admin/AdminDebug.controller.php:159 | at most one query is explained: the one at the requested index, and only if it is explainable |
| AdminDebug.LinkExplainsItsQuery | sources/admin/AdminDebug.controller.php:143-159 | following the link of an explainable query explains that query's SELECT part |
| AdminDebug.ShownFor | sources/admin/AdminDebug.controller.php:141-145 | the listing shows the normalised query, with a link exactly when it is explainable, and the link selects this query |
| AdminDebug.ShowQuery | sources/admin/AdminDebug.controller.php:99-143 | one pass of the loop lists the normalised query, with a link exactly when it is explainable |
| AdminDebug.Listing | sources/admin/AdminDebug.controller.php:97-145 | one listed entry per logged query |
| AdminDebug.ListingAt | sources/admin/AdminDebug.controller.php:141-145 | entry `i` is query `i` normalised, linked with `qq = i + 1` exactly when explainable |
| AdminDebug.ListingSnoc | sources/admin/AdminDebug.controller.php:97-145 | listing one more query appends exactly that query's entry |
| AdminDebug.ViewQueries | sources/admin/AdminDebug.controller.php:97-200 | the loop over the logged queries produces the listing and explains exactly the target query |
| AdminDebug.ActionViewQuery | sources/admin/AdminDebug.controller.php:60-200 | `sa=hide` only toggles and redirects; any other request leaves the toggle alone and shows the listing and the explain target |
| AdminDebug.ReplaceMarker | sources/admin/AdminDebug.controller.php:236 | the left-to-right `strtr` scan; its properties are stated by the lemmas below |
| AdminDebug.ReplaceKeepsMarkerFree | sources/admin/AdminDebug.controller.php:236 | text without a marker goes through `strtr` unchanged |
| AdminDebug.ReplacedStartsLikeSource | sources/admin/AdminDebug.controller.php:236 | a rewritten text starts with a semicolon-free word only if the original does |
| AdminDebug.NoMarkerAfterReplace | sources/admin/AdminDebug.controller.php:236 | after `strtr` no `;sesc=` is left |
| AdminDebug.PrefixAddsNoMarker | sources/admin/AdminDebug.controller.php:233-236 | the prepended script line cannot form a marker with the text after it |
| AdminDebug.RewriteSessionVar | sources/admin/AdminDebug.controller.php:232-236 | file data without the marker is unchanged; with it, the result is the script line followed by the data with every marker replaced; afterwards no marker remains |
| AdminDebug.RewriteIdempotent | sources/admin/AdminDebug.controller.php:232-236 | rewriting twice equals rewriting once |
| MarkRead.SubActionFor | sources/controllers/Markasread.controller.php:62-82 | `all`, `unreadreplies` and `topic` select their handlers; anything else, or no `sa`, selects `action_markasread` |
| MarkRead.MarkReadController.Dispatch | sources/controllers/Markasread.controller.php:60-85 | the response and the session are those of the selected handler; only `action_markasread` touches the query-string fields; only `action_markboards` sets `id_msg_last_visit` |
| MarkRead.ParsedIds | sources/controllers/Markasread.controller.php:257-266 | one id per `explode` piece |
| MarkRead.ParseIds | sources/controllers/Markasread.controller.php:257-266 | one id per `explode` piece, in order, each the piece's `(int)` |
| MarkRead.EmptyListGivesOneId | sources/controllers/Markasread.controller.php:179 | an empty topic list still yields one topic, that of the empty string |
| MarkRead.Decimals | sources/controllers/Markasread.controller.php:292 | one rendering per board, none containing a comma |
| MarkRead.JoinedIdsRoundTrip | sources/controllers/Markasread.controller.php:292 | reading a comma-joined board list back with an `(int)` that inverts decimal rendering gives the same boards in order |
| MarkRead.MarkRows | sources/controllers/Markasread.controller.php:184-186 | one row per topic |
| MarkRead.BuildMarkRows | sources/controllers/Markasread.controller.php:184-186 | one row per topic, in order: user, topic, `maxMsgID`, and flag 1 exactly when the topic is logged |
| MarkRead.FlaggedRowsAreLogged | sources/controllers/Markasread.controller.php:182-186 | the topics of flagged rows are exactly the logged topics |
| MarkRead.EarlyMessage | sources/controllers/Markasread.controller.php:212-231 | with `t` set: 0 at or past the last message or at or before the first, else the previous message; without `t`: 0 from the first page, else one below the message at `start` |
| MarkRead.EarlyMessageBeforeTarget | sources/controllers/Markasread.controller.php:212-223 | when `previousMessage` answers an earlier message, the topic is marked read not at all, or up to a message before `t` with `t` before the last message, so it shows as unread |
| MarkRead.SortLimits | sources/controllers/Markasread.controller.php:294-308 | the string names a sort exactly when the sort is one of the six methods, followed by `;desc` when `desc` is set and by nothing otherwise; for any other sort it is `;asc` or empty, following `asc` |
| MarkRead.UnlistedSortNeverEchoed | sources/controllers/Markasread.controller.php:304-305 | an unlisted sort value gives the same string as no sort |
| MarkRead.BoardLimits | sources/controllers/Markasread.controller.php:292 | the string is non-empty exactly when `sa` is `board`, and then it is `;boards=` ... `;start=%d` |
| MarkRead.BoardLimitsRoundTrip | sources/controllers/Markasread.controller.php:292 | the list inside the board limits reads back as the marked boards |
| MarkRead.BoardUrl | sources/controllers/Markasread.controller.php:236 | `board=`, the board's decimal rendering, then `.0` |
| MarkRead.BoardRedirect | sources/controllers/Markasread.controller.php:317-327 | empty exactly for board 0, else the board's URL |
| MarkRead.Cleared | sources/controllers/Markasread.controller.php:286-290 | the cache keeps its keys; marked boards' entries are emptied and all others are kept |
| MarkRead.ClearedStep | sources/controllers/Markasread.controller.php:286-290 | clearing one more board empties that board's entry only |
| MarkRead.ClearedFor | sources/controllers/Markasread.controller.php:286-290 | an unset cache stays unset; a set cache keeps its keys, the marked boards' entries are emptied and every other entry is kept |
| MarkRead.Session.ResetTopicseen | sources/controllers/Markasread.controller.php:164-165 | a set cache becomes empty; an unset cache stays unset |
| MarkRead.Session.ClearTopicseen | sources/controllers/Markasread.controller.php:286-290 | the loop leaves the cache as `Cleared` describes |
| MarkRead.BoardsResponse | sources/controllers/Markasread.controller.php:147-168 | `action=unread` exactly when `old_url` contains it, else the empty redirect; one `markBoardsRead` of exactly the accessible boards with the `unread` flag and `true`, none when there are none |
| MarkRead.RepliesResponse | sources/controllers/Markasread.controller.php:174-194 | back to the unread-replies page, with one marking of one row per `-`-separated piece of `topics` |
| MarkRead.TopicResponse | sources/controllers/Markasread.controller.php:200-237 | back to `board=B.0`, marking one row for the user and the topic with the topic's `unwatched` flag, and the `true` argument |
| MarkRead.Categories | sources/controllers/Markasread.controller.php:255-260 | the `c` list parsed into one id per piece, empty when `c` is not given |
| MarkRead.RequestedBoards | sources/controllers/Markasread.controller.php:257-270 | the listed boards, then the current board; its order is stated by `RequestedBoardsOrder` |
| MarkRead.MarkedBoards | sources/controllers/Markasread.controller.php:257-281 | the requested boards, widened to their children under `children`, then filtered by `boardsPosts` |
| MarkRead.MarkAsReadResponse | sources/controllers/Markasread.controller.php:244-329 | nothing is marked and there is no redirect exactly when there are no boards to mark; otherwise the marked boards are marked first, with at most one marking after, and the redirect is `board=B.0` for the current board (its parent under `unread`), empty when that is 0 |
| MarkRead.RequestedBoardsOrder | sources/controllers/Markasread.controller.php:257-270 | the requested boards are the listed ids in order (none when there is no `boards` list), followed by the current board exactly when there is one |
| MarkRead.NothingMarkedWithoutBoards | sources/controllers/Markasread.controller.php:278-281 | with no board to mark, nothing is marked and the redirect is empty |
| MarkRead.AddedMarkings | sources/controllers/Markasread.controller.php:313-315 | one default-argument marking of the boards under the marked ones, none when there are none |
| MarkRead.MarkAsReadRedirect | sources/controllers/Markasread.controller.php:284-328 | the marked boards are marked first; without `unread` the only further marking is `markBoardsRead` of the accessible boards under them, when there are any, and under `unread` there is none; the redirect is `board=B.0` for the current board (or the parent, under `unread`), empty when that is 0 |
| MarkRead.MarkBoardsRedirect | sources/controllers/Markasread.controller.php:153-167 | `action=unread` is returned exactly when `old_url` contains it, else the empty redirect; boards are marked exactly when some are accessible |
| MarkRead.MarkReadController.ActionMarkBoards | sources/controllers/Markasread.controller.php:147-168 | marks every accessible board; sets `id_msg_last_visit`; empties the cache unless returning to the unread list |
| MarkRead.MarkReadController.ActionMarkReplies | sources/controllers/Markasread.controller.php:174-194 | marks one row per listed topic and empties the cache |
| MarkRead.MarkReadController.ActionMarkTopic | sources/controllers/Markasread.controller.php:200-237 | marks the topic read up to its early message and returns to the board |
| MarkRead.MarkReadController.ActionMarkAsRead | sources/controllers/Markasread.controller.php:244-329 | without boards nothing changes; otherwise it marks them, clears their cache entries, and sets both query-string fields |
| Strings.Split | sources/controllers/Markasread.controller.php:179 | `explode` gives at least one piece, and no piece contains the delimiter |
| Strings.Join | sources/controllers/Markasread.controller.php:292 | `implode`; `JoinSplit` and `SplitJoin` make it the inverse of `Split` |
| Strings.JoinSplit | sources/admin/AdminDebug.controller.php:101-111 | joining the pieces of a split text gives the text back |
| Strings.SplitJoin | sources/controllers/Markasread.controller.php:292 | splitting joined pieces that avoid the delimiter gives the pieces back |
| Strings.UpperAscii | subscriptions.php:187 | `strtoupper` on one character: a lower-case ASCII letter becomes the matching upper-case letter, anything else is kept |
| Strings.Trim | sources/admin/AdminDebug.controller.php:117 | `trim` with PHP's default character set |
| Strings.TrimEnds | sources/admin/AdminDebug.controller.php:117 | the result is a slice `s[i..j]` with only trimmable characters before `i` and from `j` on, no trimmable character at either end of it, and a text with none at its ends is unchanged |
| Strings.Contains | sources/controllers/Markasread.controller.php:161 | `strpos(...) !== false`: an empty needle is always found, and a needle longer than the text never is |
| Strings.IntToString | sources/controllers/Markasread.controller.php:236 | the canonical decimal: a leading minus exactly for a negative number, digits after it, and no leading zero except for 0 itself; `IntToStringValue` says which number it renders |
| Strings.NatToString | sources/controllers/Markasread.controller.php:236 | digits only, starting with `0` exactly for 0, and never with a leading zero |
| Strings.IntToStringValue | sources/controllers/Markasread.controller.php:236 | the rendering reads back as the number it renders, so distinct numbers render differently |

## Left out

- Database access, mail, logging, `exit`, `redirectexit` and `header`: lookups are map reads or given answers, and their effects are recorded as values.
- The gateway adapter classes are not part of this model, and neither is instantiating them by name. Each adapter is the record of its answers.
- `subscriptions.php` lines 1-57: the bootstrap, the empty-POST check, the `paid_enabled` check and loading the `notify_users` list.
- PHP `serialize`/`unserialize`: cost tables and pending lists are already-decoded ordered sequences, and an empty or unreadable pending list is the empty sequence.
- Floating-point amounts: prices and paid amounts are integers in minor units, so the `(float)` equality at `subscriptions.php:186` is integer equality.
- `intval` and loose `==` on non-numeric strings: request ids are integers, and `(int)` on a list piece is a given function (`Forum.toInt`).
- Concurrency: two notifications racing on the same pending list are not modelled; the model handles one request.
- The HTML of the debug page, `htmlspecialchars`/`nl2br`, the rounded timings, running EXPLAIN and printing its result, and the `BOARDDIR` file-name rewrite.
- The INSERT ... SELECT and CREATE TEMPORARY TABLE regular expressions: they are given extraction functions (`Extractors`).
- `adminInfoFile` and the rest of `action_viewadminfile` after the rewrite; the permission and session checks (`isAllowedTo`, `is_not_guest`, `checkSession`, `$db_show_debug`); and `action_index` / `action_index_api`, which wrap `_dispatch` in checks and presentation.
- The helpers `accessibleBoards`, `boardsPosts`, `addChildBoards`, `getLoggedTopics`, `getTopicInfo`, `previousMessage` and `messageAt` are given answers. `markBoardsRead` and `markTopicsRead` are recorded calls; what they write is not modelled.
- The `$_SESSION['debug']` keys are taken to be 0, 1, 2, ... in order, so a query's index is its position.
- Cut, LeadingTabs and DurationCode: lengths, cuts and the first character are counted in characters, while PHP's `substr` and `strlen` count bytes, so a multi-byte character before the cut point is cut whole here but split in PHP.

=== FILE: admin_debug.dfy ===
/** The query-debugging admin pages: the `view_queries` toggle, the list of
    the request's queries with their indentation normalised and a link on
    every explainable one, and the session-variable rewrite applied to admin
    files. The database (EXPLAIN), the HTML rendering and the file lookup
    are left outside; the regular-expression extractions of the SELECT part
    of INSERT ... SELECT and CREATE TEMPORARY TABLE ... SELECT are given as
    functions. */
module AdminDebug {
  import opened Wrappers
  import opened Strings

  // ---------------------------------------------------------------------
  // The hide/show toggle.

  /** `$_SESSION['view_queries'] == 1 ? 0 : 1`. */
  function Toggled(v: int): (r: int)
    ensures r == 0 || r == 1
    ensures r == 0 <==> v == 1
  {
    if v == 1 then 0 else 1
  }

  /** Toggling twice from a value the toggle can produce restores it. */
  lemma ToggleTwiceRestores(v: int)
    requires v == 0 || v == 1
    ensures Toggled(Toggled(v)) == v
  {
  }

  /** The session values the debug page reads and writes. */
  class DebugSession {
    var viewQueries: int
    var oldUrl: string

    constructor (viewQueries: int, oldUrl: string)
      ensures this.viewQueries == viewQueries && this.oldUrl == oldUrl
    {
      this.viewQueries := viewQueries;
      this.oldUrl := oldUrl;
    }

    /** `sa=hide`: flip `view_queries`, then go back where the admin came
        from, or to the forum index when that was the query page itself. */
    method Hide() returns (redirect: string)
      modifies this`viewQueries
      ensures viewQueries == Toggled(old(viewQueries))
      ensures redirect == if Contains(oldUrl, "action=viewquery") then "" else oldUrl
    {
      viewQueries := if viewQueries == 1 then 0 else 1;
      if Contains(oldUrl, "action=viewquery") {
        redirect := "";
      } else {
        redirect := oldUrl;
      }
    }
  }

  // ---------------------------------------------------------------------
  // The `qq` parameter.

  /** `isset($_REQUEST['qq']) ? (int) $_REQUEST['qq'] - 1 : -1`. */
  function QueryIdOf(qq: Option<int>): (id: int)
    ensures qq.None? ==> id < 0
    ensures qq.Some? ==> id + 1 == qq.value
  {
    if qq.Some? then qq.value - 1 else -1
  }

  /** The `qq` value the link of query `q` carries. */
  function LinkQq(q: nat): (qq: int)
    ensures qq >= 1
    ensures QueryIdOf(Some(qq)) == q
  {
    q + 1
  }

  /** Following the link of query `q` selects query `q`; no `qq` selects no query. */
  lemma LinkRoundTrip(q: nat)
    ensures QueryIdOf(Some(LinkQq(q))) == q
    ensures QueryIdOf(None) < 0
  {
  }

  // ---------------------------------------------------------------------
  // Indentation normalisation.

  /** `str_replace("\r", '', s)`: every carriage return goes, every other
      character stays, and text without one is left as it is. */
  function WithoutCR(s: string): (r: string)
    ensures '\r' !in r
    ensures |r| <= |s|
    ensures '\r' !in s ==> r == s
    decreases |s|
  {
    if s == [] then []
    else (if s[0] == '\r' then [] else [s[0]]) + WithoutCR(s[1..])
  }

  /** Every character other than a carriage return survives, as often as it occurs. */
  lemma {:induction false} WithoutCRKeepsOthers(s: string)
    ensures forall c | c != '\r' :: multiset(WithoutCR(s))[c] == multiset(s)[c]
    decreases |s|
  {
    if s != [] {
      WithoutCRKeepsOthers(s[1..]);
      assert s == [s[0]] + s[1..];
    }
  }

  /** Removing carriage returns distributes over concatenation, so the kept
      characters stay in their order. */
  lemma {:induction false} WithoutCRAppend(a: string, b: string)
    ensures WithoutCR(a + b) == WithoutCR(a) + WithoutCR(b)
    decreases |a|
  {
    if a != [] {
      WithoutCRAppend(a[1..], b);
      var ab := a + b;
      assert ab[0] == a[0] && ab[1..] == a[1..] + b;
      if a[0] == '\r' {
        assert WithoutCR(ab) == WithoutCR(a[1..] + b);
      } else {
        assert WithoutCR(ab) == [a[0]] + (WithoutCR(a[1..]) + WithoutCR(b));
      }
    } else {
      assert a + b == b;
    }
  }

  /** `ltrim(s, "\n")`: a suffix of `s` that does not start with a newline. */
  function TrimLeadingNewlines(s: string): (r: string)
    ensures |r| <= |s| && r == s[|s| - |r|..]
    ensures r == [] || r[0] != '\n'
    ensures forall k | 0 <= k < |s| - |r| :: s[k] == '\n'
    decreases |s|
  {
    if s != [] && s[0] == '\n' then TrimLeadingNewlines(s[1..]) else s
  }

  /** The query text before it is cut into lines: carriage returns dropped,
      then the run of leading newlines. */
  function Cleaned(q: string): (r: string)
    ensures '\r' !in r
    ensures r == [] || r[0] != '\n'
    ensures '\r' !in q && (q == [] || q[0] != '\n') ==> r == q
  {
    var s := WithoutCR(q);
    var r := TrimLeadingNewlines(s);
    assert forall k | 0 <= k < |r| :: r[k] == s[|s| - |r| + k];
    r
  }

  /** Cleaning drops the carriage returns and then only a run of newlines
      from the front. */
  lemma CleanedStripsOnlyLeadingNewlines(q: string)
    ensures var s := WithoutCR(q);
      && |Cleaned(q)| <= |s| && Cleaned(q) == s[|s| - |Cleaned(q)|..]
      && forall k | 0 <= k < |s| - |Cleaned(q)| :: s[k] == '\n'
  {
  }

  /** The length of the `^(\t*)` match. */
  function LeadingTabs(line: string): (n: nat)
    ensures n <= |line|
    ensures forall k | 0 <= k < n :: line[k] == '\t'
    ensures n < |line| ==> line[n] != '\t'
    decreases |line|
  {
    if line != [] && line[0] == '\t' then 1 + LeadingTabs(line[1..]) else 0
  }

  /** One pass of the indent loop: take the line's indent when it is
      smaller, or whenever the running value is 0. */
  function IndentStep(m: nat, lead: nat): (r: nat)
    ensures m == 0 ==> r == lead
    ensures m != 0 ==> r <= m && r <= lead && (r == m || r == lead)
  {
    if lead < m || m == 0 then lead else m
  }

  /** `$min_indent` after the loop has seen `lines`. */
  function MinIndent(lines: seq<string>): (m: nat)
    ensures lines != [] ==> m <= LeadingTabs(lines[|lines| - 1])
    decreases |lines|
  {
    if lines == [] then 0
    else IndentStep(MinIndent(lines[..|lines| - 1]), LeadingTabs(lines[|lines| - 1]))
  }

  /** Because a 0 is overwritten by the next line's indent, the result is 0
      exactly when the last line has no leading tab. */
  lemma MinIndentZeroIffLastUnindented(lines: seq<string>)
    requires |lines| >= 1
    ensures MinIndent(lines) == 0 <==> LeadingTabs(lines[|lines| - 1]) == 0
    ensures LeadingTabs(lines[|lines| - 1]) == 0 ==> IndentFixed(lines) == lines
  {
    if LeadingTabs(lines[|lines| - 1]) == 0 {
      assert forall i | 0 <= i < |lines| :: IndentFixed(lines)[i] == lines[i];
    }
  }

  /** When every line starts with a tab, the result is the true minimum of
      the leading-tab counts. */
  lemma {:induction false} MinIndentWhenAllIndented(lines: seq<string>)
    requires |lines| >= 1
    requires forall i | 0 <= i < |lines| :: LeadingTabs(lines[i]) >= 1
    ensures forall i | 0 <= i < |lines| :: MinIndent(lines) <= LeadingTabs(lines[i])
    ensures exists i | 0 <= i < |lines| :: MinIndent(lines) == LeadingTabs(lines[i])
    decreases |lines|
  {
    var n := |lines|;
    var front := lines[..n - 1];
    var last := LeadingTabs(lines[n - 1]);
    assert MinIndent(lines) == IndentStep(MinIndent(front), last);
    if n == 1 {
      assert MinIndent(lines) == LeadingTabs(lines[0]);
    } else {
      forall i | 0 <= i < n - 1 ensures LeadingTabs(front[i]) >= 1 {
        assert front[i] == lines[i];
      }
      MinIndentWhenAllIndented(front);
      var m := MinIndent(front);
      var j :| 0 <= j < n - 1 && m == LeadingTabs(front[j]);
      assert front[j] == lines[j];
      forall i | 0 <= i < n ensures MinIndent(lines) <= LeadingTabs(lines[i]) {
        if i < n - 1 {
          assert front[i] == lines[i];
          assert m <= LeadingTabs(front[i]);
        }
      }
      if last < m {
        assert MinIndent(lines) == LeadingTabs(lines[n - 1]);
      } else {
        assert MinIndent(lines) == LeadingTabs(lines[j]);
      }
    }
  }


  /** `substr(line, k)`: empty once `k` is past the end. */
  function Cut(line: string, k: nat): (r: string)
    ensures k <= |line| ==> line == line[..k] + r
    ensures k > |line| ==> r == []
  {
    if k <= |line| then line[k..] else []
  }

  /** When every line is indented, each line loses exactly its first
      `min_indent` characters, and they are all tabs. */
  lemma AllIndentedLosesOnlyTabs(lines: seq<string>, i: nat)
    requires |lines| >= 1 && i < |lines|
    requires forall j | 0 <= j < |lines| :: LeadingTabs(lines[j]) >= 1
    ensures var m := MinIndent(lines);
      && m <= |lines[i]|
      && (forall k | 0 <= k < m :: lines[i][k] == '\t')
      && lines[i] == lines[i][..m] + Cut(lines[i], m)
  {
    MinIndentWhenAllIndented(lines);
    var m := MinIndent(lines);
    assert m <= LeadingTabs(lines[i]);
  }

  /** Each line with its first `min_indent` characters cut. */
  function IndentFixed(lines: seq<string>): (out: seq<string>)
    ensures |out| == |lines|
  {
    var m := MinIndent(lines);
    seq(|lines|, i requires 0 <= i < |lines| => Cut(lines[i], m))
  }

  /** `$query_data['q']` after the indentation fix. */
  function Normalize(q: string): string
  {
    Join(IndentFixed(Split(Cleaned(q), '\n')), '\n')
  }

  /** When the last line has no leading tab nothing is cut, so the
      normalised query is the cleaned query itself. */
  lemma NormalizeUnindented(q: string)
    requires var lines := Split(Cleaned(q), '\n'); LeadingTabs(lines[|lines| - 1]) == 0
    ensures Normalize(q) == Cleaned(q)
  {
    var lines := Split(Cleaned(q), '\n');
    MinIndentZeroIffLastUnindented(lines);
    JoinSplit(Cleaned(q), '\n');
  }

  /** Cutting lines adds no character to them. */
  lemma IndentFixedAvoids(lines: seq<string>, c: char)
    requires forall i | 0 <= i < |lines| :: c !in lines[i]
    ensures forall i | 0 <= i < |lines| :: c !in IndentFixed(lines)[i]
  {
    var m := MinIndent(lines);
    forall i | 0 <= i < |lines| ensures c !in IndentFixed(lines)[i] {
      if m <= |lines[i]| {
        assert forall k | 0 <= k < |lines[i][m..]| :: lines[i][m..][k] == lines[i][m + k];
      }
    }
  }

  /** The lines of a normalised query are the cut lines. */
  lemma NormalizeKeepsLines(q: string)
    ensures Split(Normalize(q), '\n') == IndentFixed(Split(Cleaned(q), '\n'))
  {
    var lines := Split(Cleaned(q), '\n');
    IndentFixedAvoids(lines, '\n');
    SplitJoin(IndentFixed(lines), '\n');
  }

  /** Normalisation leaves no carriage return. */
  lemma NormalizeDropsCR(q: string)
    ensures '\r' !in Normalize(q)
  {
    var lines := Split(Cleaned(q), '\n');
    SplitAvoids(Cleaned(q), '\n', '\r');
    IndentFixedAvoids(lines, '\r');
    JoinAvoids(IndentFixed(lines), '\n', '\r');
  }

  /** The indentation fix as the page does it: one loop for `$min_indent`,
      one rewriting the exploded lines in place. */
  method FixIndent(lines: seq<string>) returns (fixed: seq<string>)
    ensures fixed == IndentFixed(lines)
  {
    var minIndent: nat := 0;
    for l := 0 to |lines|
      invariant minIndent == MinIndent(lines[..l])
    {
      assert lines[..l + 1][..l] == lines[..l];
      var lead := LeadingTabs(lines[l]);
      if lead < minIndent || minIndent == 0 {
        minIndent := lead;
      }
    }
    assert lines[..|lines|] == lines;
    var query := new string[|lines|](i requires 0 <= i < |lines| => lines[i]);
    for l := 0 to query.Length
      invariant forall j | 0 <= j < l :: query[j] == Cut(lines[j], minIndent)
      invariant forall j | l <= j < query.Length :: query[j] == lines[j]
    {
      query[l] := Cut(query[l], minIndent);
    }
    fixed := query[..];
  }

  method NormalizeQuery(q: string) returns (r: string)
    ensures r == Normalize(q)
  {
    var fixed := FixIndent(Split(Cleaned(q), '\n'));
    r := Join(fixed, '\n');
  }

  // ---------------------------------------------------------------------
  // Which queries can be explained.

  /** Tables created by earlier queries of the same request. */
  const TempTables: seq<string> :=
    ["log_topics_unread", "topics_posted_in", "tmp_log_search_topics", "tmp_log_search_messages"]

  /** The two `preg_match` extractions of a trailing `SELECT ...`. */
  datatype Extractors = Extractors(insertSelect: string -> Option<string>, createSelect: string -> Option<string>)

  /** The text that would be explained, when the query is a SELECT or ends in one. */
  function SelectText(q: string, ex: Extractors): (r: Option<string>)
    ensures IsPrefix("SELECT", Trim(q)) ==> r == Some(q)
    ensures r.Some? && !IsPrefix("SELECT", Trim(q)) ==>
      r == ex.insertSelect(Trim(q)) || r == ex.createSelect(Trim(q))
    ensures !IsPrefix("SELECT", Trim(q)) ==>
      (r.None? <==> ex.insertSelect(Trim(q)).None? && ex.createSelect(Trim(q)).None?)
    ensures !IsPrefix("SELECT", Trim(q)) && ex.insertSelect(Trim(q)).Some? ==> r == ex.insertSelect(Trim(q))
  {
    if IsPrefix("SELECT", Trim(q)) then Some(q)
    else if ex.insertSelect(Trim(q)).Some? then ex.insertSelect(Trim(q))
    else ex.createSelect(Trim(q))
  }

  /** A query gets an EXPLAIN link: it has a SELECT part naming no temporary table. */
  predicate IsExplainable(q: string, ex: Extractors)
  {
    SelectText(q, ex).Some? && forall t | t in TempTables :: !Contains(SelectText(q, ex).value, t)
  }

  /** The scan over the temporary tables, stopping at the first one the
      SELECT part names. */
  method NamesTempTable(select: string) returns (named: bool)
    ensures named <==> exists t | t in TempTables :: Contains(select, t)
  {
    named := false;
    for i := 0 to |TempTables|
      invariant !named
      invariant forall j | 0 <= j < i :: !Contains(select, TempTables[j])
    {
      if Contains(select, TempTables[i]) {
        named := true;
        break;
      }
    }
  }

  /** `$is_select_query` and `$select` for one (normalised) query. */
  method ClassifyQuery(q: string, ex: Extractors) returns (isSelectQuery: bool, select: string)
    ensures isSelectQuery <==>
      SelectText(q, ex).Some? && forall t | t in TempTables :: !Contains(SelectText(q, ex).value, t)
    ensures isSelectQuery ==> select == SelectText(q, ex).value
  {
    var trimmed := Trim(q);
    isSelectQuery := IsPrefix("SELECT", trimmed);
    select := "";
    if isSelectQuery {
      select := q;
    } else if ex.insertSelect(trimmed).Some? {
      isSelectQuery := true;
      select := ex.insertSelect(trimmed).value;
    } else if ex.createSelect(trimmed).Some? {
      isSelectQuery := true;
      select := ex.createSelect(trimmed).value;
    }
    assert isSelectQuery <==> SelectText(q, ex).Some?;
    assert isSelectQuery ==> select == SelectText(q, ex).value;
    if isSelectQuery {
      var named := NamesTempTable(select);
      if named {
        isSelectQuery := false;
      }
    }
  }


  /** A SELECT naming no temporary table is explainable, as written. */
  lemma PlainSelectIsExplainable(q: string, ex: Extractors)
    requires IsPrefix("SELECT", Trim(q))
    requires forall t | t in TempTables :: !Contains(q, t)
    ensures IsExplainable(q, ex) && SelectText(q, ex) == Some(q)
  {
  }

  /** A SELECT part naming a temporary table is never explainable. */
  lemma TempTableNeverExplainable(q: string, ex: Extractors, t: string)
    requires t in TempTables
    requires SelectText(q, ex).Some? && Contains(SelectText(q, ex).value, t)
    ensures !IsExplainable(q, ex)
  {
  }

  /** The SELECT part an EXPLAIN would run for a logged query, when it is explainable. */
  function Explanation(raw: string, ex: Extractors): (r: Option<string>)
    ensures r.Some? <==> IsExplainable(Normalize(raw), ex)
    ensures r.Some? ==> r == SelectText(Normalize(raw), ex)
  {
    var text := Normalize(raw);
    if IsExplainable(text, ex) then SelectText(text, ex) else None
  }

  /** What the page explains: the one query whose index is the requested
      one, provided it is explainable. */
  function ExplainTarget(debug: seq<string>, qq: Option<int>, ex: Extractors): (r: seq<(nat, string)>)
    ensures |r| <= 1
    ensures r != [] ==> 0 <= r[0].0 < |debug| && r[0].0 == QueryIdOf(qq) && IsExplainable(Normalize(debug[r[0].0]), ex)
  {
    var id := QueryIdOf(qq);
    if 0 <= id < |debug| && Explanation(debug[id], ex).Some? then
      var e := Explanation(debug[id], ex);
      assert IsExplainable(Normalize(debug[id]), ex);
      [(id, e.value)]
    else []
  }

  /** Following the link shown on query `q` explains query `q`. */
  lemma LinkExplainsItsQuery(debug: seq<string>, ex: Extractors, q: nat)
    requires q < |debug| && IsExplainable(Normalize(debug[q]), ex)
    ensures ExplainTarget(debug, Some(LinkQq(q)), ex) == [(q, SelectText(Normalize(debug[q]), ex).value)]
  {
    var id := QueryIdOf(Some(LinkQq(q)));
    LinkRoundTrip(q);
    assert id == q;
    var e := Explanation(debug[q], ex);
    assert e.Some? && e.value == SelectText(Normalize(debug[q]), ex).value;
    assert ExplainTarget(debug, Some(LinkQq(q)), ex) == [(id, e.value)];
  }

  /** One listed query: its normalised text and, when explainable, its link's `qq`. */
  datatype Shown = Shown(text: string, link: Option<int>)

  /** The listing of one query: its normalised text and, when the query is
      explainable, the link to its EXPLAIN, which carries `qq = q + 1`. */
  function ShownFor(raw: string, q: nat, ex: Extractors): (r: Shown)
    ensures r.text == Normalize(raw)
    ensures r.link.Some? <==> IsExplainable(Normalize(raw), ex)
    ensures r.link.Some? ==> QueryIdOf(r.link) == q
  {
    var text := Normalize(raw);
    Shown(text, if IsExplainable(text, ex) then Some(LinkQq(q)) else None)
  }

  /** One pass of the loop over `$_SESSION['debug']`. */
  method ShowQuery(raw: string, q: nat, ex: Extractors) returns (item: Shown, isSelectQuery: bool, select: string)
    ensures item == ShownFor(raw, q, ex)
    ensures isSelectQuery <==> Explanation(raw, ex).Some?
    ensures isSelectQuery ==> select == Explanation(raw, ex).value
  {
    var text := NormalizeQuery(raw);
    isSelectQuery, select := ClassifyQuery(text, ex);
    item := Shown(text, if isSelectQuery then Some(q + 1) else None);
  }

  /** `f` applied to every element together with its index, built from the back. */
  function MapIndexed<A, B>(xs: seq<A>, f: (A, nat) -> B): (r: seq<B>)
    ensures |r| == |xs|
    decreases |xs|
  {
    if xs == [] then []
    else MapIndexed(xs[..|xs| - 1], f) + [f(xs[|xs| - 1], |xs| - 1)]
  }

  lemma {:induction false} MapIndexedAt<A, B>(xs: seq<A>, f: (A, nat) -> B, i: nat)
    requires i < |xs|
    ensures MapIndexed(xs, f)[i] == f(xs[i], i)
    decreases |xs|
  {
    var front := xs[..|xs| - 1];
    if i < |xs| - 1 {
      MapIndexedAt(front, f, i);
      assert front[i] == xs[i];
    }
  }

  lemma MapIndexedSnoc<A, B>(xs: seq<A>, f: (A, nat) -> B, q: nat)
    requires q < |xs|
    ensures MapIndexed(xs[..q + 1], f) == MapIndexed(xs[..q], f) + [f(xs[q], q)]
  {
    assert xs[..q + 1][..q] == xs[..q];
  }

  /** The listing of the logged queries, one entry per query. */
  function Listing(debug: seq<string>, ex: Extractors): (r: seq<Shown>)
    ensures |r| == |debug|
  {
    MapIndexed(debug, (raw: string, q: nat) => ShownFor(raw, q, ex))
  }

  /** Entry `i` of the listing is query `i` shown with link `qq = i + 1`. */
  lemma ListingAt(debug: seq<string>, ex: Extractors, i: nat)
    requires i < |debug|
    ensures Listing(debug, ex)[i] == ShownFor(debug[i], i, ex)
  {
    MapIndexedAt(debug, (raw: string, q: nat) => ShownFor(raw, q, ex), i);
  }

  /** Listing one more query appends its entry. */
  lemma ListingSnoc(debug: seq<string>, ex: Extractors, q: nat)
    requires q < |debug|
    ensures Listing(debug[..q + 1], ex) == Listing(debug[..q], ex) + [ShownFor(debug[q], q, ex)]
  {
    MapIndexedSnoc(debug, (raw: string, q: nat) => ShownFor(raw, q, ex), q);
  }

  /** The loop over `$_SESSION['debug']`. */
  method ViewQueries(debug: seq<string>, qq: Option<int>, ex: Extractors)
    returns (shown: seq<Shown>, explained: seq<(nat, string)>)
    ensures shown == Listing(debug, ex)
    ensures explained == ExplainTarget(debug, qq, ex)
  {
    var queryId := QueryIdOf(qq);
    shown := [];
    explained := [];
    for q := 0 to |debug|
      invariant shown == Listing(debug[..q], ex)
      invariant explained == if 0 <= queryId < q then ExplainTarget(debug, qq, ex) else []
    {
      var item, isSelectQuery, select := ShowQuery(debug[q], q, ex);
      ListingSnoc(debug, ex, q);
      shown := shown + [item];
      if queryId == q && isSelectQuery {
        explained := explained + [(q, select)];
      }
    }
    assert debug[..|debug|] == debug;
  }

  datatype ViewResponse = Redirect(url: string) | Page(shown: seq<Shown>, explained: seq<(nat, string)>)

  /** `action_viewquery` after its permission checks. */
  method ActionViewQuery(sa: Option<string>, qq: Option<int>, debug: seq<string>, ex: Extractors,
                         session: DebugSession)
    returns (response: ViewResponse)
    modifies session`viewQueries
    ensures sa == Some("hide") ==>
      && session.viewQueries == Toggled(old(session.viewQueries))
      && response == Redirect(if Contains(session.oldUrl, "action=viewquery") then "" else session.oldUrl)
    ensures sa != Some("hide") ==>
      && session.viewQueries == old(session.viewQueries)
      && response.Page?
      && response.shown == Listing(debug, ex)
      && response.explained == ExplainTarget(debug, qq, ex)
  {
    if sa == Some("hide") {
      var url := session.Hide();
      return Redirect(url);
    }
    var shown, explained := ViewQueries(debug, qq, ex);
    response := Page(shown, explained);
  }

  // ---------------------------------------------------------------------
  // The `;sesc=` rewrite of admin files.

  const Marker: string := ";sesc="
  const ReplacementTail: string := "' + window.elkForum_sessionvar + '="
  /** What `strtr` puts in place of every marker. */
  const Replacement: string := ";" + ReplacementTail
  const ScriptGuard: string := "\nif (!('elkForum_sessionvar' in window))"
  const ScriptAssign: string := "\n\twindow.elkForum_sessionvar = 'sesc'"
  const ScriptPrefixHead: string := ScriptGuard + ScriptAssign
  /** The script line prepended when the marker occurs. */
  const ScriptPrefix: string := ScriptPrefixHead + ";\n"

  /** `strtr(s, [';sesc=' => Replacement])`: a left-to-right scan that
      replaces each marker and skips past it. */
  function ReplaceMarker(s: string): string
    decreases |s|
  {
    if s == [] then []
    else if IsPrefix(Marker, s) then Replacement + ReplaceMarker(s[|Marker|..])
    else [s[0]] + ReplaceMarker(s[1..])
  }

  /** Past the end of `a`, occurrences in `a + b` are those in `b`. */
  lemma OccursShift(a: string, b: string, p: string, i: int)
    requires i >= |a|
    ensures OccursAt(a + b, p, i) <==> OccursAt(b, p, i - |a|)
  {
    if i + |p| <= |a + b| {
      assert (a + b)[i..i + |p|] == b[i - |a|..i - |a| + |p|];
    }
  }

  /** The marker can only start at a semicolon followed by an 's'. */
  lemma MarkerNeedsSemicolon(s: string, i: int)
    requires 0 <= i
    requires i + |Marker| <= |s| ==> s[i] != ';' || s[i + 1] != 's'
    ensures !OccursAt(s, Marker, i)
  {
    if i + |Marker| <= |s| {
      assert s[i..i + |Marker|][0] == s[i];
      assert s[i..i + |Marker|][1] == s[i + 1];
    }
  }

  /** A replaced marker starts with a semicolon. */
  lemma ReplacedHead(s: string)
    ensures IsPrefix(Marker, s) ==> |ReplaceMarker(s)| > 0 && ReplaceMarker(s)[0] == ';'
  {
  }

  /** A replaced string starts with a semicolon-free word only if its
      source does (every replacement starts with a semicolon). */
  lemma {:induction false} ReplacedStartsLikeSource(s: string, w: string)
    requires ';' !in w
    requires IsPrefix(w, ReplaceMarker(s))
    ensures IsPrefix(w, s)
    decreases |s|
  {
    if w != [] {
      var r := ReplaceMarker(s);
      assert r[0] == w[0];
      assert s != [];
      ReplacedHead(s);
      assert !IsPrefix(Marker, s);
      var t := ReplaceMarker(s[1..]);
      assert r == [s[0]] + t;
      assert t[..|w| - 1] == w[1..];
      ReplacedStartsLikeSource(s[1..], w[1..]);
      assert s[..|w|] == [s[0]] + s[1..][..|w| - 1];
    }
  }

  /** A replacement followed by marker-free text holds no marker. */
  lemma NoMarkerInReplacement(t: string)
    requires !Contains(t, Marker)
    ensures !Contains(Replacement + t, Marker)
  {
    var r := Replacement + t;
    assert ';' !in ReplacementTail;
    forall i | 0 <= i <= |r| - |Marker| ensures !OccursAt(r, Marker, i) {
      if i == 0 {
        assert r[1] == '\'';
        MarkerNeedsSemicolon(r, i);
      } else if i < |Replacement| {
        assert r[i] == ReplacementTail[i - 1];
        MarkerNeedsSemicolon(r, i);
      } else {
        OccursShift(Replacement, t, Marker, i);
      }
    }
  }

  /** A kept semicolon is not followed by the rest of a marker. */
  lemma KeptSemicolonStartsNoMarker(s: string)
    requires s != [] && s[0] == ';' && !IsPrefix(Marker, s)
    ensures !IsPrefix("sesc=", ReplaceMarker(s[1..]))
  {
    if IsPrefix("sesc=", ReplaceMarker(s[1..])) {
      ReplacedStartsLikeSource(s[1..], "sesc=");
      assert false;
    }
  }

  /** One character before marker-free text starts a marker only if it is a
      semicolon and the text starts with the rest of the marker. */
  lemma NoMarkerAfterChar(c: char, t: string)
    requires !Contains(t, Marker)
    requires c == ';' ==> !IsPrefix("sesc=", t)
    ensures !Contains([c] + t, Marker)
  {
    var r := [c] + t;
    forall i | 0 <= i <= |r| - |Marker| ensures !OccursAt(r, Marker, i) {
      if i == 0 {
        if c != ';' {
          MarkerNeedsSemicolon(r, i);
        } else {
          assert |t| >= 5 ==> r[1..6] == t[..5];
        }
      } else {
        OccursShift([c], t, Marker, i);
      }
    }
  }

  /** After the scan, no marker is left. */
  lemma {:induction false} NoMarkerAfterReplace(s: string)
    ensures !Contains(ReplaceMarker(s), Marker)
    decreases |s|
  {
    if s != [] {
      if IsPrefix(Marker, s) {
        NoMarkerAfterReplace(s[|Marker|..]);
        NoMarkerInReplacement(ReplaceMarker(s[|Marker|..]));
      } else {
        NoMarkerAfterReplace(s[1..]);
        if s[0] == ';' {
          KeptSemicolonStartsNoMarker(s);
        }
        NoMarkerAfterChar(s[0], ReplaceMarker(s[1..]));
      }
    }
  }

  /** Text without a marker goes through `strtr` unchanged. */
  lemma {:induction false} ReplaceKeepsMarkerFree(s: string)
    requires !Contains(s, Marker)
    ensures ReplaceMarker(s) == s
    decreases |s|
  {
    if s != [] {
      assert !OccursAt(s, Marker, 0);
      forall i | 0 <= i <= |s[1..]| - |Marker| ensures !OccursAt(s[1..], Marker, i) {
        OccursShift([s[0]], s[1..], Marker, i + 1);
        assert [s[0]] + s[1..] == s;
        assert !OccursAt(s, Marker, i + 1);
      }
      ReplaceKeepsMarkerFree(s[1..]);
    }
  }

  /** The prepended script line cannot complete a marker with what follows. */
  lemma PrefixAddsNoMarker(t: string)
    requires !Contains(t, Marker)
    ensures !Contains(ScriptPrefix + t, Marker)
  {
    var r := ScriptPrefix + t;
    assert ';' !in ScriptGuard && ';' !in ScriptAssign;
    forall i | 0 <= i <= |r| - |Marker| ensures !OccursAt(r, Marker, i) {
      if i < |ScriptPrefixHead| {
        assert r[i] == ScriptPrefixHead[i];
        MarkerNeedsSemicolon(r, i);
      } else if i == |ScriptPrefixHead| {
        assert r[i + 1] == '\n';
        MarkerNeedsSemicolon(r, i);
      } else if i == |ScriptPrefixHead| + 1 {
        assert r[i] == '\n';
        MarkerNeedsSemicolon(r, i);
      } else {
        OccursShift(ScriptPrefix, t, Marker, i);
      }
    }
  }

  /** The file-data rewrite of `action_viewadminfile`: untouched unless it
      contains the marker, and never containing it afterwards. */
  function RewriteSessionVar(data: string): (r: string)
    ensures !Contains(data, Marker) ==> r == data
    ensures Contains(data, Marker) ==> r == ScriptPrefix + ReplaceMarker(data)
    ensures !Contains(r, Marker)
  {
    if Contains(data, Marker) then
      NoMarkerAfterReplace(data);
      PrefixAddsNoMarker(ReplaceMarker(data));
      var r := ScriptPrefix + ReplaceMarker(data);
      assert r[..|ScriptPrefix|] == ScriptPrefix;
      r
    else data
  }

  /** Rewriting twice is rewriting once. */
  lemma RewriteIdempotent(data: string)
    ensures RewriteSessionVar(RewriteSessionVar(data)) == RewriteSessionVar(data)
  {
  }
}

=== FILE: mark_read.dfy ===
/** The mark-as-read controller: the sub-action dispatch, marking every
    board, the listed unread replies or one topic (as unread from a given
    message), and marking a chosen set of boards, which also remembers the
    board and sort limits for the unread page in two private fields. The
    database helpers (`accessibleBoards`, `boardsPosts`, `addChildBoards`,
    `getLoggedTopics`, `getTopicInfo`, `previousMessage`, `messageAt`) are
    given answers; `markBoardsRead` and `markTopicsRead` are recorded as
    effects. */
module MarkRead {
  import opened Wrappers
  import opened Strings

  // ---------------------------------------------------------------------
  // Request, forum context and effects.

  /** The request fields the controller reads. An absent `topics` is the
      empty string (which `explode` turns into one empty piece); absent `t`
      and `start` are 0; flags are `isset` tests. */
  datatype Request = Request(
    sa: Option<string>,
    topics: string,
    t: int,
    start: int,
    c: Option<string>,
    boards: Option<string>,
    children: bool,
    unread: bool,
    sort: Option<string>,
    asc: bool,
    desc: bool)

  /** What `getTopicInfo` returns that the controller uses. */
  datatype TopicInfo = TopicInfo(idFirstMsg: int, idLastMsg: int, unwatched: int)

  /** The globals of the request and the answers of the helpers it calls. */
  datatype Forum = Forum(
    user: int,
    board: int,
    topic: int,
    boardParent: int,
    maxMsgID: int,
    /** `(int)` on one piece of a list. */
    toInt: string -> int,
    /** `accessibleBoards()`. */
    accessibleBoards: seq<int>,
    /** `accessibleBoards(null, $boards)`: boards whose parents are listed. */
    boardsUnder: seq<int> -> seq<int>,
    /** `addChildBoards($boards)`, which extends the list in place. */
    addChildBoards: seq<int> -> seq<int>,
    /** `array_keys(boardsPosts($boards, $categories))`. */
    boardsPosts: (seq<int>, seq<int>) -> seq<int>,
    /** The topics for which `getLoggedTopics` has a non-empty entry. */
    loggedTopics: (int, seq<int>) -> set<int>,
    topicInfo: TopicInfo,
    /** `previousMessage($msg, $topic)`. */
    previousMessage: (int, int) -> int,
    /** The first value of `messageAt($start, $topic)`. */
    messageAt: (int, int) -> int)

  /** A `log_topics` row: member, topic, message, unwatched flag. */
  datatype Row = Row(member: int, topic: int, msg: int, unwatched: int)

  /** The database updates the controller asks for. */
  datatype Effect =
    | MarkBoardsRead(boards: seq<int>, unread: bool, resetTopics: bool)
    /** `markBoardsRead($boards)` with its default arguments. */
    | MarkBoardsReadDefaults(boards: seq<int>)
    | MarkTopicsRead(rows: seq<Row>, wasSet: bool)
    /** `markTopicsRead` given one row, not a list of rows. */
    | MarkTopicRead(row: Row, wasSet: bool)

  /** Where `redirectexit` is sent and what was written to the database. */
  datatype Response = Response(redirect: string, effects: seq<Effect>)

  // ---------------------------------------------------------------------
  // Dispatch.

  datatype SubAction = MarkBoards | MarkReplies | MarkTopic | MarkAsRead

  /** The `_dispatch` switch on `sa`. */
  function SubActionFor(sa: Option<string>): (a: SubAction)
    ensures a == MarkBoards <==> sa == Some("all")
    ensures a == MarkReplies <==> sa == Some("unreadreplies")
    ensures a == MarkTopic <==> sa == Some("topic")
    ensures a == MarkAsRead <==> sa.None? || sa.value !in ["all", "unreadreplies", "topic"]
  {
    if sa == Some("all") then MarkBoards
    else if sa == Some("unreadreplies") then MarkReplies
    else if sa == Some("topic") then MarkTopic
    else MarkAsRead
  }

  // ---------------------------------------------------------------------
  // Lists of ids.

  /** `(int)` of every piece of `explode(d, list)`, in order. */
  function ParsedIds(list: string, d: char, toInt: string -> int): (ids: seq<int>)
    ensures |ids| == |Split(list, d)|
  {
    var parts := Split(list, d);
    seq(|parts|, i requires 0 <= i < |parts| => toInt(parts[i]))
  }

  /** The `foreach` that appends `(int) $piece` for every piece. */
  method ParseIds(list: string, d: char, toInt: string -> int) returns (ids: seq<int>)
    ensures |ids| == |Split(list, d)|
    ensures forall i | 0 <= i < |ids| :: ids[i] == toInt(Split(list, d)[i])
    ensures ids == ParsedIds(list, d, toInt)
  {
    var parts := Split(list, d);
    ids := [];
    for i := 0 to |parts|
      invariant |ids| == i
      invariant forall j | 0 <= j < i :: ids[j] == toInt(parts[j])
    {
      ids := ids + [toInt(parts[i])];
    }
  }

  /** A missing or empty list still yields one id, that of the empty string. */
  lemma EmptyListGivesOneId(d: char, toInt: string -> int)
    ensures ParsedIds("", d, toInt) == [toInt("")]
  {
  }

  /** The decimal rendering of every id, as `implode` writes them. */
  function Decimals(ids: seq<int>): (r: seq<string>)
    ensures |r| == |ids|
    ensures forall i | 0 <= i < |r| :: ',' !in r[i]
  {
    seq(|ids|, i requires 0 <= i < |ids| => IntToString(ids[i]))
  }

  /** Reading back a comma-joined list of ids with an `(int)` that inverts the
      decimal rendering gives the same ids in the same order. */
  lemma JoinedIdsRoundTrip(ids: seq<int>, toInt: string -> int)
    requires |ids| >= 1
    requires forall k :: toInt(IntToString(k)) == k
    ensures ParsedIds(Join(Decimals(ids), ','), ',', toInt) == ids
  {
    SplitJoin(Decimals(ids), ',');
  }

  // ---------------------------------------------------------------------
  // Rows for `markTopicsRead`.

  /** One row per topic, in order, flagged when the topic is logged. */
  function MarkRows(user: int, topics: seq<int>, maxMsg: int, logged: set<int>): (rows: seq<Row>)
    ensures |rows| == |topics|
  {
    seq(|topics|, i requires 0 <= i < |topics| =>
      Row(user, topics[i], maxMsg, if topics[i] in logged then 1 else 0))
  }

  /** The `foreach` of `action_markreplies` that appends one row per topic. */
  method BuildMarkRows(user: int, topics: seq<int>, maxMsg: int, logged: set<int>)
    returns (rows: seq<Row>)
    ensures |rows| == |topics|
    ensures forall i | 0 <= i < |rows| ::
      && rows[i].member == user && rows[i].topic == topics[i] && rows[i].msg == maxMsg
      && (rows[i].unwatched == 1 <==> topics[i] in logged)
      && (rows[i].unwatched == 0 <==> topics[i] !in logged)
    ensures rows == MarkRows(user, topics, maxMsg, logged)
  {
    rows := [];
    for i := 0 to |topics|
      invariant |rows| == i
      invariant forall j | 0 <= j < i ::
        rows[j] == Row(user, topics[j], maxMsg, if topics[j] in logged then 1 else 0)
    {
      rows := rows + [Row(user, topics[i], maxMsg, if topics[i] in logged then 1 else 0)];
    }
  }

  /** The flagged rows are exactly those of logged topics. */
  lemma FlaggedRowsAreLogged(user: int, topics: seq<int>, maxMsg: int, logged: set<int>)
    ensures var rows := MarkRows(user, topics, maxMsg, logged);
      (set i | 0 <= i < |rows| && rows[i].unwatched == 1 :: rows[i].topic)
        == (set i | 0 <= i < |topics| && topics[i] in logged :: topics[i])
  {
    var rows := MarkRows(user, topics, maxMsg, logged);
    var flagged := set i | 0 <= i < |rows| && rows[i].unwatched == 1 :: rows[i].topic;
    var loggedOnes := set i | 0 <= i < |topics| && topics[i] in logged :: topics[i];
    forall x | x in flagged ensures x in loggedOnes {
      var i :| 0 <= i < |rows| && rows[i].unwatched == 1 && rows[i].topic == x;
      assert topics[i] in logged;
    }
    forall x | x in loggedOnes ensures x in flagged {
      var i :| 0 <= i < |topics| && topics[i] in logged && topics[i] == x;
      assert rows[i].unwatched == 1;
    }
  }

  // ---------------------------------------------------------------------
  // Marking one topic unread.

  /** `$earlyMsg`: the message before which the topic counts as read. */
  function EarlyMessage(t: int, start: int, info: TopicInfo, topic: int,
                        previousMessage: (int, int) -> int, messageAt: (int, int) -> int): (e: int)
    ensures t != 0 && (t >= info.idLastMsg || t <= info.idFirstMsg) ==> e == 0
    ensures t != 0 && info.idFirstMsg < t < info.idLastMsg ==> e == previousMessage(t, topic)
    ensures t == 0 && start == 0 ==> e == 0
    ensures t == 0 && start != 0 ==> e + 1 == messageAt(start, topic)
  {
    if t != 0 then
      if t >= info.idLastMsg then 0
      else if t <= info.idFirstMsg then 0
      else previousMessage(t, topic)
    else if start == 0 then 0
    else messageAt(start, topic) - 1
  }

  /** When `previousMessage` answers with an earlier message, a topic marked
      from message `t` is either read not at all or read up to a message
      strictly before `t`, and `t` itself lies before the topic's last
      message, so the topic shows as unread. */
  lemma EarlyMessageBeforeTarget(t: int, start: int, info: TopicInfo, topic: int,
                                 previousMessage: (int, int) -> int, messageAt: (int, int) -> int)
    requires t > 0
    requires previousMessage(t, topic) < t
    ensures var e := EarlyMessage(t, start, info, topic, previousMessage, messageAt);
      e == 0 || (e < t < info.idLastMsg)
  {
  }

  // ---------------------------------------------------------------------
  // Query-string limits and redirects.

  const SortMethods: seq<string> := ["subject", "starter", "replies", "views", "first_post", "last_post"]

  /** `_querystring_sort_limits`. */
  function SortLimits(sort: Option<string>, asc: bool, desc: bool): (r: string)
    ensures IsPrefix(";sort=", r) <==> sort.Some? && sort.value in SortMethods
    ensures IsPrefix(";sort=", r) ==>
      && sort.Some? && 6 + |sort.value| <= |r|
      && r[6..6 + |sort.value|] == sort.value
      && (desc <==> r[6 + |sort.value|..] == ";desc")
      && (!desc ==> |r| == 6 + |sort.value|)
    ensures !IsPrefix(";sort=", r) ==> (r == ";asc" <==> asc) && (r == "" <==> !asc)
  {
    if sort.None? || sort.value !in SortMethods then (if asc then ";asc" else "")
    else ";sort=" + sort.value + (if desc then ";desc" else "")
  }

  /** Any unlisted sort value gives the same string as no sort value at all. */
  lemma UnlistedSortNeverEchoed(sort: Option<string>, asc: bool, desc: bool)
    requires sort.Some? && sort.value !in SortMethods
    ensures SortLimits(sort, asc, desc) == SortLimits(None, asc, desc)
  {
  }

  const BoardsKey: string := ";boards="
  const StartSuffix: string := ";start=%d"

  /** `_querystring_board_limits`. */
  function BoardLimits(sa: Option<string>, boards: seq<int>): (r: string)
    ensures r != [] <==> sa == Some("board")
    ensures r != [] ==> IsPrefix(BoardsKey, r) && |r| >= |BoardsKey| + |StartSuffix|
    ensures r != [] ==> r[|r| - |StartSuffix|..] == StartSuffix
  {
    if sa == Some("board") then
      var r := BoardsKey + Join(Decimals(boards), ',') + StartSuffix;
      assert r[..|BoardsKey|] == BoardsKey;
      assert r[|r| - |StartSuffix|..] == StartSuffix;
      r
    else []
  }

  /** The unread page reading the `boards` list back gets the marked boards. */
  lemma BoardLimitsRoundTrip(boards: seq<int>, toInt: string -> int)
    requires |boards| >= 1
    requires forall k :: toInt(IntToString(k)) == k
    ensures var r := BoardLimits(Some("board"), boards);
      ParsedIds(r[|BoardsKey|..|r| - |StartSuffix|], ',', toInt) == boards
  {
    var list := Join(Decimals(boards), ',');
    var r := BoardLimits(Some("board"), boards);
    assert r == BoardsKey + list + StartSuffix;
    assert r[|BoardsKey|..|r| - |StartSuffix|] == list;
    JoinedIdsRoundTrip(boards, toInt);
  }

  /** `'board=' . $b . '.0'`. */
  function BoardUrl(b: int): (r: string)
    ensures IsPrefix("board=", r) && |r| >= 9
    ensures r[6..|r| - 2] == IntToString(b) && r[|r| - 2..] == ".0"
  {
    var r := "board=" + IntToString(b) + ".0";
    assert r[..6] == "board=";
    assert r[6..|r| - 2] == IntToString(b);
    r
  }

  /** `empty($b) ? '' : 'board=' . $b . '.0'`. */
  function BoardRedirect(b: int): (r: string)
    ensures r == "" <==> b == 0
    ensures b != 0 ==> r == BoardUrl(b)
  {
    if b == 0 then "" else BoardUrl(b)
  }

  // ---------------------------------------------------------------------
  // The session's topic cache.

  /** The cache with the entries of `boards` emptied. */
  function Cleared(cache: map<int, seq<int>>, boards: seq<int>): (r: map<int, seq<int>>)
    ensures r.Keys == cache.Keys
    ensures forall b | b in r :: r[b] == if b in boards then [] else cache[b]
  {
    map b | b in cache :: if b in boards then [] else cache[b]
  }

  /** `topicseen_cache` after `action_markasread`: unset stays unset. */
  function ClearedFor(cache: Option<map<int, seq<int>>>, boards: seq<int>): (r: Option<map<int, seq<int>>>)
    ensures r.None? <==> cache.None?
    ensures r.Some? ==> r.value.Keys == cache.value.Keys
    ensures r.Some? ==> forall b | b in boards && b in r.value :: r.value[b] == []
    ensures r.Some? ==> forall b | b !in boards && b in r.value :: r.value[b] == cache.value[b]
  {
    if cache.None? then None else Some(Cleared(cache.value, boards))
  }

  /** Clearing one more board extends the cleared set by that board. */
  lemma ClearedStep(cache: map<int, seq<int>>, boards: seq<int>, b: int)
    ensures Cleared(cache, boards + [b]) ==
      if b in cache then Cleared(cache, boards)[b := []] else Cleared(cache, boards)
  {
    var l := Cleared(cache, boards + [b]);
    var r := if b in cache then Cleared(cache, boards)[b := []] else Cleared(cache, boards);
    assert forall k :: k in boards + [b] <==> k in boards || k == b;
    assert l.Keys == r.Keys;
    assert forall k | k in l :: l[k] == r[k];
  }

  /** The session values the controller reads and writes. */
  class Session {
    var idMsgLastVisit: int
    var oldUrl: string
    var topicseenCache: Option<map<int, seq<int>>>

    constructor (idMsgLastVisit: int, oldUrl: string, topicseenCache: Option<map<int, seq<int>>>)
      ensures this.idMsgLastVisit == idMsgLastVisit
      ensures this.oldUrl == oldUrl
      ensures this.topicseenCache == topicseenCache
    {
      this.idMsgLastVisit := idMsgLastVisit;
      this.oldUrl := oldUrl;
      this.topicseenCache := topicseenCache;
    }

    /** `$_SESSION['topicseen_cache'] = array()` when it is set. */
    method ResetTopicseen()
      modifies this`topicseenCache
      ensures topicseenCache == if old(topicseenCache).Some? then Some(map[]) else None
    {
      if topicseenCache.Some? {
        topicseenCache := Some(map[]);
      }
    }

    /** The loop emptying the cache entry of every marked board that has one. */
    method ClearTopicseen(boards: seq<int>)
      modifies this`topicseenCache
      ensures topicseenCache == ClearedFor(old(topicseenCache), boards)
    {
      if topicseenCache.Some? {
        assert Cleared(topicseenCache.value, []) == topicseenCache.value;
      }
      assert boards[..0] == [];
      for i := 0 to |boards|
        invariant topicseenCache == ClearedFor(old(topicseenCache), boards[..i])
      {
        assert boards[..i + 1] == boards[..i] + [boards[i]];
        if topicseenCache.Some? {
          ClearedStep(old(topicseenCache).value, boards[..i], boards[i]);
          if boards[i] in topicseenCache.value {
            topicseenCache := Some(topicseenCache.value[boards[i] := []]);
          }
        }
      }
      assert boards[..|boards|] == boards;
    }
  }

  // ---------------------------------------------------------------------
  // What each sub-action answers.

  /** `action_markboards`: mark every accessible board. */
  function BoardsResponse(forum: Forum, unread: bool, oldUrl: string): (r: Response)
    ensures r.redirect == "action=unread" <==> Contains(oldUrl, "action=unread")
    ensures r.redirect != "action=unread" ==> r.redirect == ""
    ensures r.effects == (if forum.accessibleBoards == [] then [] else [MarkBoardsRead(forum.accessibleBoards, unread, true)])
  {
    Response(
      if Contains(oldUrl, "action=unread") then "action=unread" else "",
      if forum.accessibleBoards == [] then [] else [MarkBoardsRead(forum.accessibleBoards, unread, true)])
  }

  /** The `-`-separated topics of `action_markreplies`. */
  function ReplyTopics(req: Request, forum: Forum): seq<int>
  {
    ParsedIds(req.topics, '-', forum.toInt)
  }

  /** `action_markreplies`: one row per listed topic, then the replies page. */
  function RepliesResponse(req: Request, forum: Forum): (r: Response)
    ensures r.redirect == "action=unreadreplies"
    ensures |r.effects| == 1 && r.effects[0].MarkTopicsRead? && r.effects[0].wasSet
    ensures |r.effects[0].rows| == |Split(req.topics, '-')| >= 1
  {
    var topics := ReplyTopics(req, forum);
    Response("action=unreadreplies",
      [MarkTopicsRead(MarkRows(forum.user, topics, forum.maxMsgID, forum.loggedTopics(forum.user, topics)), true)])
  }

  /** `action_marktopic`: mark the topic read up to its early message. */
  function TopicResponse(req: Request, forum: Forum): (r: Response)
    ensures r.redirect == BoardUrl(forum.board)
    ensures |r.effects| == 1 && r.effects[0].MarkTopicRead?
    ensures r.effects[0].row.member == forum.user && r.effects[0].row.topic == forum.topic
    ensures r.effects[0].row.unwatched == forum.topicInfo.unwatched && r.effects[0].wasSet
  {
    var e := EarlyMessage(req.t, req.start, forum.topicInfo, forum.topic, forum.previousMessage, forum.messageAt);
    Response(BoardUrl(forum.board),
      [MarkTopicRead(Row(forum.user, forum.topic, e, forum.topicInfo.unwatched), true)])
  }

  /** The boards asked for: the `boards` list, then the current board. */
  function RequestedBoards(req: Request, forum: Forum): seq<int>
  {
    (if req.boards.Some? then ParsedIds(req.boards.value, ',', forum.toInt) else [])
      + (if forum.board != 0 then [forum.board] else [])
  }

  /** The `c` list of categories, empty when it is not given. */
  function Categories(req: Request, forum: Forum): (cs: seq<int>)
    ensures req.c.None? ==> cs == []
    ensures req.c.Some? ==> |cs| == |Split(req.c.value, ',')| >= 1
  {
    if req.c.Some? then ParsedIds(req.c.value, ',', forum.toInt) else []
  }

  /** The boards `action_markasread` marks. */
  function MarkedBoards(req: Request, forum: Forum): seq<int>
  {
    var requested := RequestedBoards(req, forum);
    var boards := if req.children && requested != [] then forum.addChildBoards(requested) else requested;
    forum.boardsPosts(boards, Categories(req, forum))
  }

  /** `action_markasread`. */
  function MarkAsReadResponse(req: Request, forum: Forum): (r: Response)
    ensures r.effects == [] <==> MarkedBoards(req, forum) == []
    ensures r.effects != [] ==> r.effects[0] == MarkBoardsRead(MarkedBoards(req, forum), req.unread, true)
    ensures r.effects == [] ==> r.redirect == ""
    ensures r.effects != [] ==> r.redirect == BoardRedirect(if req.unread then forum.boardParent else forum.board)
    ensures |r.effects| <= 2
  {
    var boards := MarkedBoards(req, forum);
    if boards == [] then Response("", [])
    else if !req.unread then
      var toAdd := forum.boardsUnder(boards);
      Response(BoardRedirect(forum.board),
        [MarkBoardsRead(boards, false, true)] + AddedMarkings(toAdd))
    else Response(BoardRedirect(forum.boardParent), [MarkBoardsRead(boards, true, true)])
  }

  /** `markBoardsRead($boards_to_add)`, when there are boards to add. */
  function AddedMarkings(toAdd: seq<int>): (r: seq<Effect>)
    ensures r == [] <==> toAdd == []
    ensures r != [] ==> r == [MarkBoardsReadDefaults(toAdd)]
  {
    if toAdd == [] then [] else [MarkBoardsReadDefaults(toAdd)]
  }

  /** The requested boards are the listed ids in order, then the current
      board when there is one. */
  lemma RequestedBoardsOrder(req: Request, forum: Forum)
    ensures var listed := if req.boards.Some? then ParsedIds(req.boards.value, ',', forum.toInt) else [];
      var bs := RequestedBoards(req, forum);
      && bs[..|listed|] == listed
      && (forum.board != 0 <==> |bs| == |listed| + 1)
      && (forum.board != 0 ==> bs[|listed|] == forum.board)
  {
    var listed := if req.boards.Some? then ParsedIds(req.boards.value, ',', forum.toInt) else [];
    var bs := RequestedBoards(req, forum);
    assert bs[..|listed|] == listed;
  }

  /** With no board to mark, nothing is marked and there is no redirect. */
  lemma NothingMarkedWithoutBoards(req: Request, forum: Forum)
    requires MarkedBoards(req, forum) == []
    ensures MarkAsReadResponse(req, forum) == Response("", [])
  {
  }

  /** Otherwise exactly the marked boards are marked first; without `unread`
      the accessible boards under them follow with the default arguments, when
      there are any. The redirect is `board=B.0` for the current board (or its
      parent, for `unread`), empty when there is none. */
  lemma MarkAsReadRedirect(req: Request, forum: Forum)
    requires MarkedBoards(req, forum) != []
    ensures var resp := MarkAsReadResponse(req, forum);
      && resp.effects[0] == MarkBoardsRead(MarkedBoards(req, forum), req.unread, true)
      && (!req.unread ==> (resp.redirect == "" <==> forum.board == 0))
      && (req.unread ==> (resp.redirect == "" <==> forum.boardParent == 0))
      && (req.unread ==> |resp.effects| == 1)
      && resp.redirect == BoardRedirect(if req.unread then forum.boardParent else forum.board)
      && (!req.unread ==> resp.effects[1..] == AddedMarkings(forum.boardsUnder(MarkedBoards(req, forum))))
  {
  }

  /** `action_markboards` sends the user back to the unread list exactly when
      that is where they came from. */
  lemma MarkBoardsRedirect(forum: Forum, unread: bool, oldUrl: string)
    ensures var resp := BoardsResponse(forum, unread, oldUrl);
      && (resp.redirect == "action=unread" <==> Contains(oldUrl, "action=unread"))
      && (resp.redirect != "action=unread" ==> resp.redirect == "")
      && (resp.effects == [] <==> forum.accessibleBoards == [])
  {
  }

  // ---------------------------------------------------------------------
  // The controller.

  class MarkReadController {
    var querystringBoardLimits: string
    var querystringSortLimits: string

    constructor ()
      ensures querystringBoardLimits == "" && querystringSortLimits == ""
    {
      querystringBoardLimits := "";
      querystringSortLimits := "";
    }

    /** `sa=all`. */
    method ActionMarkBoards(req: Request, forum: Forum, session: Session) returns (resp: Response)
      modifies session`idMsgLastVisit, session`topicseenCache
      ensures resp == BoardsResponse(forum, req.unread, session.oldUrl)
      ensures session.idMsgLastVisit == forum.maxMsgID
      ensures session.topicseenCache ==
        if Contains(session.oldUrl, "action=unread") || old(session.topicseenCache).None?
        then old(session.topicseenCache) else Some(map[])
    {
      var effects := [];
      if forum.accessibleBoards != [] {
        effects := [MarkBoardsRead(forum.accessibleBoards, req.unread, true)];
      }
      session.idMsgLastVisit := forum.maxMsgID;
      if Contains(session.oldUrl, "action=unread") {
        return Response("action=unread", effects);
      }
      session.ResetTopicseen();
      resp := Response("", effects);
    }

    /** `sa=unreadreplies`. */
    method ActionMarkReplies(req: Request, forum: Forum, session: Session) returns (resp: Response)
      modifies session`topicseenCache
      ensures resp == RepliesResponse(req, forum)
      ensures session.topicseenCache == if old(session.topicseenCache).Some? then Some(map[]) else None
    {
      var topics := ParseIds(req.topics, '-', forum.toInt);
      var logged := forum.loggedTopics(forum.user, topics);
      var markRead := BuildMarkRows(forum.user, topics, forum.maxMsgID, logged);
      session.ResetTopicseen();
      resp := Response("action=unreadreplies", [MarkTopicsRead(markRead, true)]);
    }

    /** `sa=topic`. */
    method ActionMarkTopic(req: Request, forum: Forum) returns (resp: Response)
      ensures resp == TopicResponse(req, forum)
      ensures resp.effects[0].row.msg ==
        EarlyMessage(req.t, req.start, forum.topicInfo, forum.topic, forum.previousMessage, forum.messageAt)
    {
      var info := forum.topicInfo;
      var earlyMsg: int;
      if req.t != 0 {
        if req.t >= info.idLastMsg {
          earlyMsg := 0;
        } else if req.t <= info.idFirstMsg {
          earlyMsg := 0;
        } else {
          earlyMsg := forum.previousMessage(req.t, forum.topic);
        }
      } else if req.start == 0 {
        earlyMsg := 0;
      } else {
        earlyMsg := forum.messageAt(req.start, forum.topic);
        earlyMsg := earlyMsg - 1;
      }
      resp := Response("board=" + IntToString(forum.board) + ".0",
        [MarkTopicRead(Row(forum.user, forum.topic, earlyMsg, info.unwatched), true)]);
    }

    /** Any other `sa`: mark the chosen boards and remember the limits. */
    method ActionMarkAsRead(req: Request, forum: Forum, session: Session) returns (resp: Response)
      modifies this, session`topicseenCache
      ensures resp == MarkAsReadResponse(req, forum)
      ensures MarkedBoards(req, forum) == [] ==>
        && querystringBoardLimits == old(querystringBoardLimits)
        && querystringSortLimits == old(querystringSortLimits)
        && session.topicseenCache == old(session.topicseenCache)
      ensures MarkedBoards(req, forum) != [] ==>
        && querystringBoardLimits == BoardLimits(req.sa, MarkedBoards(req, forum))
        && querystringSortLimits == SortLimits(req.sort, req.asc, req.desc)
        && session.topicseenCache == ClearedFor(old(session.topicseenCache), MarkedBoards(req, forum))
    {
      var categories: seq<int> := [];
      var boards: seq<int> := [];
      if req.c.Some? {
        categories := ParseIds(req.c.value, ',', forum.toInt);
      }
      if req.boards.Some? {
        boards := ParseIds(req.boards.value, ',', forum.toInt);
      }
      if forum.board != 0 {
        boards := boards + [forum.board];
      }
      assert boards == RequestedBoards(req, forum);
      assert categories == Categories(req, forum);
      if req.children && boards != [] {
        boards := forum.addChildBoards(boards);
      }
      boards := forum.boardsPosts(boards, categories);
      assert boards == MarkedBoards(req, forum);
      if boards == [] {
        return Response("", []);
      }
      var effects := [MarkBoardsRead(boards, req.unread, true)];
      session.ClearTopicseen(boards);
      querystringBoardLimits := BoardLimits(req.sa, boards);
      querystringSortLimits := SortLimits(req.sort, req.asc, req.desc);
      if !req.unread {
        var toAdd := forum.boardsUnder(boards);
        if toAdd != [] {
          effects := effects + [MarkBoardsReadDefaults(toAdd)];
        }
        resp := Response(BoardRedirect(forum.board), effects);
      } else {
        resp := Response(BoardRedirect(forum.boardParent), effects);
      }
    }

    /** `_dispatch`: run the handler the switch picks. */
    method Dispatch(req: Request, forum: Forum, session: Session) returns (resp: Response)
      modifies this, session`idMsgLastVisit, session`topicseenCache
      ensures SubActionFor(req.sa) == MarkBoards ==> resp == BoardsResponse(forum, req.unread, session.oldUrl)
      ensures SubActionFor(req.sa) == MarkReplies ==> resp == RepliesResponse(req, forum)
      ensures SubActionFor(req.sa) == MarkTopic ==> resp == TopicResponse(req, forum)
      ensures SubActionFor(req.sa) == MarkAsRead ==> resp == MarkAsReadResponse(req, forum)
      ensures SubActionFor(req.sa) != MarkAsRead ==>
        querystringBoardLimits == old(querystringBoardLimits) && querystringSortLimits == old(querystringSortLimits)
      ensures SubActionFor(req.sa) == MarkBoards ==>
        && session.idMsgLastVisit == forum.maxMsgID
        && session.topicseenCache ==
          if Contains(session.oldUrl, "action=unread") || old(session.topicseenCache).None?
          then old(session.topicseenCache) else Some(map[])
      ensures SubActionFor(req.sa) != MarkBoards ==> session.idMsgLastVisit == old(session.idMsgLastVisit)
      ensures SubActionFor(req.sa) == MarkReplies ==>
        session.topicseenCache == if old(session.topicseenCache).Some? then Some(map[]) else None
      ensures SubActionFor(req.sa) == MarkTopic ==> session.topicseenCache == old(session.topicseenCache)
      ensures SubActionFor(req.sa) == MarkAsRead ==>
        session.topicseenCache ==
          if MarkedBoards(req, forum) == [] then old(session.topicseenCache)
          else ClearedFor(old(session.topicseenCache), MarkedBoards(req, forum))
    {
      match SubActionFor(req.sa)
      case MarkBoards =>
        resp := ActionMarkBoards(req, forum, session);
      case MarkReplies =>
        resp := ActionMarkReplies(req, forum, session);
      case MarkTopic =>
        resp := ActionMarkTopic(req, forum);
      case MarkAsRead =>
        resp := ActionMarkAsRead(req, forum, session);
    }
  }
}

=== FILE: strings.dfy ===
/** The PHP string primitives the three handlers rely on, on `seq<char>`:
    `explode`/`implode` on a one-character delimiter, `strpos(...) !== false`,
    prefix tests, `trim`, `strtoupper` on one ASCII letter and the decimal
    rendering of an integer that string concatenation performs. */
module Strings {

  /** `explode(d, s)`: the pieces of `s` between occurrences of `d`; PHP
      always returns at least one piece (`explode(',', '')` is `['']`). */
  function Split(s: string, d: char): (parts: seq<string>)
    ensures |parts| >= 1
    ensures forall i | 0 <= i < |parts| :: d !in parts[i]
    decreases |s|
  {
    if s == [] then [[]]
    else
      var rest := Split(s[1..], d);
      if s[0] == d then [[]] + rest
      else [[s[0]] + rest[0]] + rest[1..]
  }

  /** `implode(d, parts)`. */
  function Join(parts: seq<string>, d: char): string
  {
    if |parts| == 0 then []
    else if |parts| == 1 then parts[0]
    else parts[0] + [d] + Join(parts[1..], d)
  }

  /** Gluing the pieces back together gives the original string. */
  lemma {:induction false} JoinSplit(s: string, d: char)
    ensures Join(Split(s, d), d) == s
    decreases |s|
  {
    if s != [] {
      JoinSplit(s[1..], d);
      var rest := Split(s[1..], d);
      if s[0] == d {
        assert Split(s, d) == [[]] + rest;
        assert ([[]] + rest)[1..] == rest;
      } else if |rest| == 1 {
        assert Split(s, d) == [[s[0]] + rest[0]];
      } else {
        var parts := [[s[0]] + rest[0]] + rest[1..];
        assert Split(s, d) == parts;
        assert parts[1..] == rest[1..];
        assert Join(rest, d) == rest[0] + [d] + Join(rest[1..], d);
      }
    }
  }

  /** A delimiter-free prefix joins the first piece of whatever follows it. */
  lemma {:induction false} SplitAfterPlainPrefix(p: string, t: string, d: char)
    requires d !in p
    ensures Split(p + t, d) == [p + Split(t, d)[0]] + Split(t, d)[1..]
    decreases |p|
  {
    if p != [] {
      SplitAfterPlainPrefix(p[1..], t, d);
      assert (p + t)[1..] == p[1..] + t;
      assert (p + t)[0] == p[0];
      assert [p[0]] + (p[1..] + Split(t, d)[0]) == p + Split(t, d)[0];
    } else {
      var parts := Split(t, d);
      assert p + t == t;
      assert [] + parts[0] == parts[0];
      assert parts == [parts[0]] + parts[1..];
    }
  }

  /** Splitting a join of delimiter-free pieces gives the pieces back, so
      `explode` after `implode` keeps both the number of pieces and each piece. */
  lemma {:induction false} SplitJoin(parts: seq<string>, d: char)
    requires |parts| >= 1
    requires forall i | 0 <= i < |parts| :: d !in parts[i]
    ensures Split(Join(parts, d), d) == parts
    decreases |parts|
  {
    if |parts| == 1 {
      SplitAfterPlainPrefix(parts[0], [], d);
      assert parts[0] + [] == parts[0];
    } else {
      var tail := Join(parts[1..], d);
      SplitJoin(parts[1..], d);
      assert Join(parts, d) == parts[0] + ([d] + tail);
      SplitAfterPlainPrefix(parts[0], [d] + tail, d);
      assert ([d] + tail)[1..] == tail;
      assert Split([d] + tail, d) == [[]] + parts[1..];
      assert parts[0] + [] == parts[0];
      assert parts == [parts[0]] + parts[1..];
    }
  }

  /** A character absent from every piece and from the delimiter is absent
      from their join. */
  lemma {:induction false} JoinAvoids(parts: seq<string>, d: char, c: char)
    requires c != d
    requires forall i | 0 <= i < |parts| :: c !in parts[i]
    ensures c !in Join(parts, d)
    decreases |parts|
  {
    if |parts| > 1 {
      JoinAvoids(parts[1..], d, c);
    }
  }

  /** A character absent from the string is absent from every piece of it. */
  lemma {:induction false} SplitAvoids(s: string, d: char, c: char)
    requires c !in s
    ensures forall i | 0 <= i < |Split(s, d)| :: c !in Split(s, d)[i]
    decreases |s|
  {
    if s != [] {
      assert forall k | 0 <= k < |s[1..]| :: s[1..][k] == s[k + 1];
      SplitAvoids(s[1..], d, c);
    }
  }

  predicate IsPrefix(p: string, s: string)
  {
    |p| <= |s| && s[..|p|] == p
  }

  predicate OccursAt(s: string, p: string, i: int)
  {
    0 <= i && i + |p| <= |s| && s[i..i + |p|] == p
  }

  /** `strpos(s, p) !== false`. */
  predicate Contains(s: string, p: string): (found: bool)
    ensures p == [] ==> found
    ensures |p| > |s| ==> !found
  {
    assert p == [] ==> OccursAt(s, p, 0);
    exists i | 0 <= i <= |s| - |p| :: OccursAt(s, p, i)
  }

  /** The characters PHP's `trim` removes by default. */
  predicate IsTrimmable(c: char)
  {
    c == ' ' || c == '\t' || c == '\n' || c == '\r' || c == '\0' || c == '\U{000B}'
  }

  function TrimLeft(s: string): string
    decreases |s|
  {
    if s != [] && IsTrimmable(s[0]) then TrimLeft(s[1..]) else s
  }

  function TrimRight(s: string): string
    decreases |s|
  {
    if s != [] && IsTrimmable(s[|s| - 1]) then TrimRight(s[..|s| - 1]) else s
  }

  /** `trim(s)`. */
  function Trim(s: string): string
  {
    TrimRight(TrimLeft(s))
  }

  /** `ltrim` removes a prefix and leaves no trimmable character in front. */
  lemma {:induction false} TrimLeftStrips(s: string)
    ensures var r := TrimLeft(s);
      |r| <= |s| && r == s[|s| - |r|..] && (r == [] || !IsTrimmable(r[0]))
    decreases |s|
  {
    if s != [] && IsTrimmable(s[0]) {
      TrimLeftStrips(s[1..]);
    }
  }

  /** Every character `ltrim` removes is trimmable. */
  lemma {:induction false} TrimLeftRemovesTrimmable(s: string)
    ensures forall k | 0 <= k < |s| - |TrimLeft(s)| :: IsTrimmable(s[k])
    decreases |s|
  {
    if s != [] && IsTrimmable(s[0]) {
      var t := s[1..];
      TrimLeftRemovesTrimmable(t);
      assert TrimLeft(s) == TrimLeft(t);
      forall k | 1 <= k < |s| - |TrimLeft(s)|
        ensures IsTrimmable(s[k])
      {
        assert s[k] == t[k - 1];
      }
    }
  }

  /** `rtrim` removes a suffix and leaves no trimmable character at the end. */
  lemma {:induction false} TrimRightStrips(s: string)
    ensures var r := TrimRight(s);
      |r| <= |s| && r == s[..|r|] && (r == [] || !IsTrimmable(r[|r| - 1]))
    decreases |s|
  {
    if s != [] && IsTrimmable(s[|s| - 1]) {
      TrimRightStrips(s[..|s| - 1]);
    }
  }

  /** Every character `rtrim` removes is trimmable. */
  lemma {:induction false} TrimRightRemovesTrimmable(s: string)
    ensures forall k | |TrimRight(s)| <= k < |s| :: IsTrimmable(s[k])
    decreases |s|
  {
    if s != [] && IsTrimmable(s[|s| - 1]) {
      var front := s[..|s| - 1];
      TrimRightRemovesTrimmable(front);
      assert TrimRight(s) == TrimRight(front);
      forall k | |TrimRight(s)| <= k < |s| - 1
        ensures IsTrimmable(s[k])
      {
        assert s[k] == front[k];
      }
    }
  }

  /** `trim` keeps a middle slice of the string and removes only trimmable
      characters on either side of it. */
  lemma TrimSlice(s: string)
    ensures exists i, j | 0 <= i <= j <= |s| ::
              && Trim(s) == s[i..j]
              && (forall k | 0 <= k < i :: IsTrimmable(s[k]))
              && (forall k | j <= k < |s| :: IsTrimmable(s[k]))
  {
    var l := TrimLeft(s);
    TrimLeftStrips(s);
    TrimLeftRemovesTrimmable(s);
    TrimRightStrips(l);
    TrimRightRemovesTrimmable(l);
    var r := TrimRight(l);
    var i := |s| - |l|;
    var j := i + |r|;
    assert l == s[i..];
    assert r == s[i..j];
    forall k | j <= k < |s|
      ensures IsTrimmable(s[k])
    {
      assert s[k] == l[k - i];
    }
    assert Trim(s) == r;
  }

  /** `trim` keeps a slice of the string from which only trimmable
      characters were cut, leaves no trimmable character at either end, and
      leaves a string that has none there as it is. */
  lemma TrimEnds(s: string)
    ensures var r := Trim(s);
      && |r| <= |s|
      && (exists i, j | 0 <= i <= j <= |s| :: r == s[i..j]
            && (forall k | 0 <= k < i :: IsTrimmable(s[k]))
            && (forall k | j <= k < |s| :: IsTrimmable(s[k])))
      && (r == [] || (!IsTrimmable(r[0]) && !IsTrimmable(r[|r| - 1])))
      && (s == [] || (!IsTrimmable(s[0]) && !IsTrimmable(s[|s| - 1])) ==> r == s)
  {
    var l := TrimLeft(s);
    TrimLeftStrips(s);
    TrimRightStrips(l);
    var r := TrimRight(l);
    if r != [] {
      assert r[0] == l[0];
    }
    TrimSlice(s);
  }

  /** `strtoupper` on one character (ASCII letters only). */
  function UpperAscii(c: char): (u: char)
    ensures 'a' <= c <= 'z' ==> 'A' <= u <= 'Z' && u as int + 32 == c as int
    ensures !('a' <= c <= 'z') ==> u == c
  {
    if 'a' <= c <= 'z' then (c as int - 32) as char else c
  }

  function Digit(n: nat): (d: char)
    requires n < 10
    ensures d as int - '0' as int == n
  {
    "0123456789"[n]
  }

  /** Decimal rendering of a natural number. */
  function NatToString(n: nat): (r: string)
    ensures |r| >= 1
    ensures forall i | 0 <= i < |r| :: '0' <= r[i] <= '9'
    ensures r[0] == '0' <==> n == 0
    ensures |r| > 1 ==> r[0] != '0'
    decreases n
  {
    if n < 10 then [Digit(n)] else NatToString(n / 10) + [Digit(n % 10)]
  }

  /** The value of a string of decimal digits, read left to right. */
  function NatValue(s: string): int
    decreases |s|
  {
    if s == [] then 0 else NatValue(s[..|s| - 1]) * 10 + (s[|s| - 1] as int - '0' as int)
  }

  /** The value of an optionally signed decimal string. */
  function DecimalValue(s: string): int
  {
    if s != [] && s[0] == '-' then -NatValue(s[1..]) else NatValue(s)
  }

  /** The rendering of a natural number reads back as that number. */
  lemma {:induction false} NatToStringValue(n: nat)
    ensures NatValue(NatToString(n)) == n
    decreases n
  {
    var r := NatToString(n);
    if n < 10 {
      assert r[..|r| - 1] == [];
    } else {
      NatToStringValue(n / 10);
      assert r[..|r| - 1] == NatToString(n / 10);
    }
  }

  /** What PHP's `.` operator writes for an integer. */
  function IntToString(i: int): (r: string)
    ensures |r| >= 1
    ensures r[0] == '-' <==> i < 0
    ensures i < 0 ==> |r| >= 2
    ensures forall k | (if i < 0 then 1 else 0) <= k < |r| :: '0' <= r[k] <= '9'
    ensures i == 0 || r[if i < 0 then 1 else 0] != '0'
  {
    if i < 0 then "-" + NatToString(-i) else NatToString(i)
  }

  /** A leading minus negates the value of the digits after it. */
  lemma SignedValue(digits: string)
    requires digits != [] && digits[0] != '-'
    ensures DecimalValue(digits) == NatValue(digits)
    ensures DecimalValue("-" + digits) == -NatValue(digits)
  {
    assert ("-" + digits)[1..] == digits;
  }

  /** The rendering reads back as the number it renders, so different
      numbers render differently. */
  lemma IntToStringValue(i: int)
    ensures DecimalValue(IntToString(i)) == i
  {
    var digits := NatToString(if i < 0 then -i else i);
    NatToStringValue(if i < 0 then -i else i);
    SignedValue(digits);
  }
}

=== FILE: subscriptions.dfy ===
/** The payment-notification script: pick the gateway adapter that accepts
    the inbound notification, check the member and subscription it names,
    then handle it as a refund, a payment or subscription renewal, a
    cancellation, or ignore it.

    Everything outside the script is a value here. A gateway adapter is the
    record of its answers for this notification. The database is three maps.
    Calls into unseen helpers (`handleRefund`, `addSubscription`,
    `updateNonrecurrent`, `emailAdmins`, `log_error`) become `Step`s in the
    trace an `Outcome` carries, in the order the script makes them. */
module Subscriptions {
  import opened Wrappers
  import opened Strings

  /** One configured gateway adapter's answers for the current notification. */
  datatype Gateway = Gateway(
    code: string,
    isValid: bool,
    precheck: (Option<int>, Option<int>),  // raw (subscription id, member id); None when absent
    isRefund: bool,
    isPayment: bool,
    isSubscription: bool,
    isCancellation: bool,
    cost: int,                             // getCost(), in minor currency units
    hasProcessCancelation: bool)

  /** One outstanding one-off payment; `kind` is the detail's fourth field. */
  datatype PendingDetail = PendingDetail(subscription: int, duration: string, price: int, kind: string)

  /** A pending detail under its PHP array key, in stored (insertion) order. */
  type PendingEntry = (int, PendingDetail)

  /** The `pending_details` column: the empty string or a serialized list. */
  datatype StoredDetails = Blank | Serialized(entries: seq<PendingEntry>)

  function Unserialize(d: StoredDetails): seq<PendingEntry>
  {
    match d
    case Blank => []
    case Serialized(entries) => entries
  }

  /** The plan row; `cost` maps a duration key (or "fixed") to a price. */
  datatype Plan = Plan(name: string, cost: seq<(string, int)>, length: string)

  datatype LogRow = LogRow(idSublog: int, paymentsPending: int, pendingDetails: StoredDetails, endTime: int)

  datatype Member = Member(memberName: string, realName: string, email: string)

  /** The three tables the script reads; log rows are keyed by (subscription, member). */
  datatype Db = Db(members: map<int, Member>, plans: map<int, Plan>, logs: map<(int, int), LogRow>)

  /** `paid_email` and the per-subscription `num_length` the refund handler is given. */
  datatype Settings = Settings(paidEmail: int, numLength: map<int, int>)

  datatype SubError =
    | UnknownTransactionType
    | EmptyMember
    | MemberNotFound(member: int)
    | SubscriptionNotFound(member: int, subscription: int)
    | SubscriptionLogNotFound(member: int, subscription: int)
    | NoOutstandingPayment(member: int, subscription: int)

  datatype Mail = RefundMail | NewSubscriptionMail | ErrorMail(error: SubError)

  /** What the script asks of the database and of its helpers, in order. */
  datatype Step =
    | LookupMember(member: int)
    | LookupPlan(subscription: int)
    | LookupLog(subscription: int, member: int)
    | HandleRefund(plan: Plan, log: LogRow, member: int, numLength: Option<int>)
    | UpdateNonrecurrent(log: LogRow)
    | AddSubscription(subscription: int, member: int, duration: Option<string>)
    | EmailAdmins(mail: Mail)
    | ProcessCancelation(subscription: int, member: int, plan: Plan, log: LogRow)
    | LogError(error: SubError)
    | Close

  datatype Verdict = Refunded | Paid(added: bool) | Cancelled | Ignored | Failed(error: SubError)

  datatype Outcome = Outcome(steps: seq<Step>, verdict: Verdict)

  /** PHP's `(int)` on what `@list(...) = precheck()` yields: missing is 0. */
  function ToInt(raw: Option<int>): (n: int)
    ensures raw.None? ==> n == 0
    ensures raw.Some? ==> n == raw.value
  {
    if raw.Some? then raw.value else 0
  }

  /** PHP's `empty()` on a string. */
  predicate EmptyString(s: string): (e: bool)
    ensures e ==> |s| <= 1
    ensures s == "" ==> e
    ensures |s| == 1 ==> (e <==> s[0] == '0')
  {
    s == "" || s == "0"
  }

  /** The index of the first gateway whose `isValid()` holds. */
  function FirstValid(gateways: seq<Gateway>): (chosen: Option<nat>)
    ensures chosen.Some? ==> chosen.value < |gateways| && gateways[chosen.value].isValid
    ensures chosen.Some? ==> forall j | 0 <= j < chosen.value :: !gateways[j].isValid
    ensures chosen.None? <==> forall j | 0 <= j < |gateways| :: !gateways[j].isValid
  {
    if gateways == [] then None
    else if gateways[0].isValid then Some(0)
    else
      match FirstValid(gateways[1..])
      case None => None
      case Some(j) => Some(j + 1)
  }

  /** The gateway loop: stop at the first adapter that recognises the request. */
  method SelectGateway(gateways: seq<Gateway>) returns (chosen: Option<nat>)
    ensures chosen == FirstValid(gateways)
  {
    chosen := None;
    for i := 0 to |gateways|
      invariant chosen == None
      invariant forall j | 0 <= j < i :: !gateways[j].isValid
    {
      if gateways[i].isValid {
        chosen := Some(i);
        break;
      }
    }
  }

  /** `generateSubscriptionError`: mail the admins when `paid_email` is set, then log. */
  function ErrorReport(cfg: Settings, e: SubError): (r: seq<Step>)
    ensures 1 <= |r| <= 2 && r[|r| - 1] == LogError(e)
    ensures EmailAdmins(ErrorMail(e)) in r <==> cfg.paidEmail != 0
    ensures |r| == 2 <==> cfg.paidEmail != 0
  {
    (if cfg.paidEmail != 0 then [EmailAdmins(ErrorMail(e))] else []) + [LogError(e)]
  }

  /** The steps done so far, then the error report; the verdict is the error. */
  function Fail(cfg: Settings, done: seq<Step>, e: SubError): (o: Outcome)
    ensures o.verdict == Failed(e)
    ensures |o.steps| > |done| && o.steps[..|done|] == done
    ensures o.steps[|done|..] == ErrorReport(cfg, e)
    ensures o.steps[|o.steps| - 1] == LogError(e)
  {
    Outcome(done + ErrorReport(cfg, e), Failed(e))
  }

  /** The receipt mailed to the admins when `paid_email` is 2 and the
      handler asks for one. */
  function Receipt(cfg: Settings, mail: Mail, notify: bool): (r: seq<Step>)
    ensures |r| <= 1
    ensures r != [] <==> cfg.paidEmail == 2 && notify
    ensures r != [] ==> r[0] == EmailAdmins(mail)
  {
    if cfg.paidEmail == 2 && notify then [EmailAdmins(mail)] else []
  }

  /** `$context['subscriptions'][$subscription_id]['num_length']`, null
      for a plan with no entry. */
  function NumLength(cfg: Settings, sid: int): (r: Option<int>)
    ensures r.Some? <==> sid in cfg.numLength
    ensures r.Some? ==> r.value == cfg.numLength[sid]
  {
    if sid in cfg.numLength then Some(cfg.numLength[sid]) else None
  }

  /** Consume the first pending detail of a one-off payment. The counter
      drops by one exactly when that detail is a payback and the counter is
      non-zero; the remaining details keep their order, and an empty
      remainder is stored as the empty string. */
  function ConsumeFirst(log: LogRow): (r: LogRow)
    requires Unserialize(log.pendingDetails) != []
    ensures Unserialize(r.pendingDetails) == Unserialize(log.pendingDetails)[1..]
    ensures |Unserialize(r.pendingDetails)| == |Unserialize(log.pendingDetails)| - 1
    ensures r.pendingDetails == Blank <==> |Unserialize(log.pendingDetails)| == 1
    ensures r.paymentsPending == log.paymentsPending - 1
        <==> Unserialize(log.pendingDetails)[0].1.kind == "payback" && log.paymentsPending != 0
    ensures r.paymentsPending == log.paymentsPending || r.paymentsPending == log.paymentsPending - 1
    ensures log.paymentsPending >= 0 ==> r.paymentsPending >= 0
    ensures r.idSublog == log.idSublog && r.endTime == log.endTime
  {
    var entries := Unserialize(log.pendingDetails);
    var detail := entries[0].1;
    var rest := entries[1..];
    log.(paymentsPending := if detail.kind == "payback" && log.paymentsPending != 0
                            then log.paymentsPending - 1 else log.paymentsPending,
         pendingDetails := if rest == [] then Blank else Serialized(rest))
  }

  /** Whether a cost entry is a duration priced at the paid amount. */
  predicate PriceMatches(entry: (string, int), paid: int)
  {
    entry.0 != "fixed" && entry.1 == paid
  }

  /** `strtoupper(substr($duration, 0, 1))`. */
  function DurationCode(key: string): (code: string)
    ensures |code| <= 1
    ensures |code| == 1 <==> key != []
    ensures key != [] && 'a' <= key[0] <= 'z' ==> code[0] as int == key[0] as int - 32
    ensures key != [] && !('a' <= key[0] <= 'z') ==> code == key[..1]
  {
    if key == [] then [] else [UpperAscii(key[0])]
  }

  /** The duration a flexible plan grants: the code of the LAST matching
      key, because the scan over the cost table never stops early. */
  function MatchedDuration(cost: seq<(string, int)>, paid: int): (found: Option<string>)
    ensures found.None? <==> forall i | 0 <= i < |cost| :: !PriceMatches(cost[i], paid)
    decreases |cost|
  {
    if cost == [] then None
    else if PriceMatches(cost[|cost| - 1], paid) then Some(DurationCode(cost[|cost| - 1].0))
    else
      var r := MatchedDuration(cost[..|cost| - 1], paid);
      assert forall i | 0 <= i < |cost| - 1 :: cost[..|cost| - 1][i] == cost[i];
      r
  }

  /** The found duration is that of a matching entry after which no entry matches. */
  lemma {:induction false} MatchedDurationIsLastMatch(cost: seq<(string, int)>, paid: int)
    requires MatchedDuration(cost, paid).Some?
    ensures exists i | 0 <= i < |cost| ::
      && PriceMatches(cost[i], paid)
      && MatchedDuration(cost, paid).value == DurationCode(cost[i].0)
      && forall j | i < j < |cost| :: !PriceMatches(cost[j], paid)
    decreases |cost|
  {
    var n := |cost|;
    if PriceMatches(cost[n - 1], paid) {
      assert MatchedDuration(cost, paid).value == DurationCode(cost[n - 1].0);
    } else {
      var front := cost[..n - 1];
      assert MatchedDuration(cost, paid) == MatchedDuration(front, paid);
      MatchedDurationIsLastMatch(front, paid);
      var i :| 0 <= i < |front| && PriceMatches(front[i], paid)
        && MatchedDuration(front, paid).value == DurationCode(front[i].0)
        && forall j | i < j < |front| :: !PriceMatches(front[j], paid);
      assert cost[i] == front[i];
      assert forall j | i < j < n :: !PriceMatches(cost[j], paid) by {
        forall j | i < j < n ensures !PriceMatches(cost[j], paid) {
          if j < n - 1 { assert cost[j] == front[j]; }
        }
      }
    }
  }

  /** The flexible-duration scan (a `foreach` with `continue` and no `break`). */
  method FindDuration(cost: seq<(string, int)>, paid: int) returns (found: Option<string>)
    ensures found == MatchedDuration(cost, paid)
  {
    found := None;
    for i := 0 to |cost|
      invariant found == MatchedDuration(cost[..i], paid)
    {
      assert cost[..i + 1][..i] == cost[..i];
      var (duration, value) := cost[i];
      if duration == "fixed" {
        continue;
      } else if value == paid {
        found := Some(DurationCode(duration));
      }
    }
    assert cost[..|cost|] == cost;
  }

  /** `$cost[$key]`: the price stored under a key, if any. */
  function CostOf(cost: seq<(string, int)>, key: string): (price: Option<int>)
    ensures price.Some? <==> exists i | 0 <= i < |cost| :: cost[i].0 == key
    ensures price.Some? ==> exists i | 0 <= i < |cost| :: cost[i] == (key, price.value)
  {
    if cost == [] then None
    else if cost[0].0 == key then Some(cost[0].1)
    else
      var r := CostOf(cost[1..], key);
      assert forall i | 1 <= i < |cost| :: cost[1..][i - 1] == cost[i];
      r
  }

  /** The fixed-plan test `$total_cost != 0 && $total_cost >= $cost['fixed']`.
      A missing `fixed` price reads as null, and PHP compares a number with
      null as booleans, so any non-zero amount then passes. */
  predicate FixedAccepted(cost: seq<(string, int)>, paid: int): (ok: bool)
    ensures ok ==> paid != 0
    ensures CostOf(cost, "fixed").None? ==> (ok <==> paid != 0)
  {
    var fixed := CostOf(cost, "fixed");
    paid != 0 && (fixed.None? || paid >= fixed.value)
  }

  /** Whether (and with which duration argument) `addSubscription` is called. */
  function Acceptance(plan: Plan, paid: int): (r: Option<Option<string>>)
    ensures r.Some? ==> (r.value.Some? <==> plan.length == "F")
    ensures plan.length != "F" ==> (r.Some? <==> FixedAccepted(plan.cost, paid))
  {
    if plan.length == "F" then
      match MatchedDuration(plan.cost, paid)
      case Some(d) => Some(Some(d))
      case None => None
    else if FixedAccepted(plan.cost, paid) then Some(None)
    else None
  }

  /** The payment-or-subscription branch. */
  function Purchase(g: Gateway, sid: int, mid: int, plan: Plan, log: LogRow, cfg: Settings): (o: Outcome)
    ensures o.verdict.Failed? <==> !g.isSubscription && Unserialize(log.pendingDetails) == []
    ensures o.verdict.Failed? ==> o.verdict.error == NoOutstandingPayment(mid, sid) && o.steps != [] && o.steps[|o.steps| - 1] == LogError(o.verdict.error)
    ensures !o.verdict.Failed? ==> o.verdict == Paid(Acceptance(plan, g.cost).Some?)
  {
    if !g.isSubscription && Unserialize(log.pendingDetails) == [] then
      Fail(cfg, [], NoOutstandingPayment(mid, sid))
    else
      var consumed := if g.isSubscription then [] else [UpdateNonrecurrent(ConsumeFirst(log))];
      var added := Acceptance(plan, g.cost);
      var grant := if added.Some? then [AddSubscription(sid, mid, added.value)] else [];
      Outcome(consumed + grant + Receipt(cfg, NewSubscriptionMail, added.Some?), Paid(added.Some?))
  }

  /** Refund first, then payment or subscription, then cancellation, else nothing. */
  function Transaction(g: Gateway, sid: int, mid: int, plan: Plan, log: LogRow, cfg: Settings): (o: Outcome)
    ensures o.verdict.Failed? ==> o.steps != [] && o.steps[|o.steps| - 1] == LogError(o.verdict.error)
    ensures o.verdict.Failed? ==> !g.isRefund && (g.isPayment || g.isSubscription)
  {
    if g.isRefund then
      Outcome([HandleRefund(plan, log, mid, NumLength(cfg, sid))] + Receipt(cfg, RefundMail, true), Refunded)
    else if g.isPayment || g.isSubscription then
      Purchase(g, sid, mid, plan, log, cfg)
    else if g.isCancellation then
      Outcome(if g.hasProcessCancelation then [ProcessCancelation(sid, mid, plan, log)] else [], Cancelled)
    else
      Outcome([], Ignored)
  }

  function Lookups(sid: int, mid: int): seq<Step>
  {
    [LookupMember(mid), LookupPlan(sid), LookupLog(sid, mid)]
  }

  /** The whole script as one decision on its inputs. */
  function Reconcile(gateways: seq<Gateway>, db: Db, cfg: Settings): (o: Outcome)
    ensures o.steps != []
  {
    var chosen := FirstValid(gateways);
    if chosen.None? || EmptyString(gateways[chosen.value].code) then
      Fail(cfg, [], UnknownTransactionType)
    else
      var g := gateways[chosen.value];
      var sid := ToInt(g.precheck.0);
      var mid := ToInt(g.precheck.1);
      if mid == 0 then Fail(cfg, [], EmptyMember)
      else if mid !in db.members then Fail(cfg, [LookupMember(mid)], MemberNotFound(mid))
      else if sid !in db.plans then
        Fail(cfg, [LookupMember(mid), LookupPlan(sid)], SubscriptionNotFound(mid, sid))
      else if (sid, mid) !in db.logs then
        Fail(cfg, Lookups(sid, mid), SubscriptionLogNotFound(mid, sid))
      else
        var r := Transaction(g, sid, mid, db.plans[sid], db.logs[(sid, mid)], cfg);
        if r.verdict.Failed? then Outcome(Lookups(sid, mid) + r.steps, r.verdict)
        else Outcome(Lookups(sid, mid) + r.steps + [Close], r.verdict)
  }

  /** A run that settles anything has found the member, the plan and the
      log row, and started with the three lookups of them: nothing is
      reconciled against a log row that does not exist. */
  lemma SettledRunFoundRecords(gateways: seq<Gateway>, db: Db, cfg: Settings)
    ensures var o := Reconcile(gateways, db, cfg);
      !o.verdict.Failed? ==>
        exists sid, mid | (sid, mid) in db.logs ::
          && mid in db.members && sid in db.plans
          && |o.steps| >= 3 && o.steps[..3] == Lookups(sid, mid)
  {
    var o := Reconcile(gateways, db, cfg);
    var chosen := FirstValid(gateways);
    if !o.verdict.Failed? {
      var g := gateways[chosen.value];
      var sid := ToInt(g.precheck.0);
      var mid := ToInt(g.precheck.1);
      var r := Transaction(g, sid, mid, db.plans[sid], db.logs[(sid, mid)], cfg);
      assert o.steps == Lookups(sid, mid) + r.steps + [Close];
      assert o.steps[..3] == Lookups(sid, mid);
    }
  }

  /** A member id with no member fails right after the member lookup. */
  lemma MissingMemberFails(gateways: seq<Gateway>, db: Db, cfg: Settings, i: nat)
    requires FirstValid(gateways) == Some(i)
    requires !EmptyString(gateways[i].code)
    requires var mid := ToInt(gateways[i].precheck.1); mid != 0 && mid !in db.members
    ensures var mid := ToInt(gateways[i].precheck.1);
      Reconcile(gateways, db, cfg)
        == Outcome([LookupMember(mid)] + ErrorReport(cfg, MemberNotFound(mid)), Failed(MemberNotFound(mid)))
  {
  }

  /** An existing member with an unknown plan fails after the plan lookup. */
  lemma MissingPlanFails(gateways: seq<Gateway>, db: Db, cfg: Settings, i: nat)
    requires FirstValid(gateways) == Some(i)
    requires !EmptyString(gateways[i].code)
    requires var mid := ToInt(gateways[i].precheck.1); mid != 0 && mid in db.members
    requires ToInt(gateways[i].precheck.0) !in db.plans
    ensures var sid := ToInt(gateways[i].precheck.0);
      var mid := ToInt(gateways[i].precheck.1);
      Reconcile(gateways, db, cfg)
        == Outcome([LookupMember(mid), LookupPlan(sid)] + ErrorReport(cfg, SubscriptionNotFound(mid, sid)),
                   Failed(SubscriptionNotFound(mid, sid)))
  {
  }

  /** A member and plan without a log row fail after all three lookups, so
      no payment is reconciled without one. */
  lemma MissingLogFails(gateways: seq<Gateway>, db: Db, cfg: Settings, i: nat)
    requires FirstValid(gateways) == Some(i)
    requires !EmptyString(gateways[i].code)
    requires var mid := ToInt(gateways[i].precheck.1); mid != 0 && mid in db.members
    requires ToInt(gateways[i].precheck.0) in db.plans
    requires (ToInt(gateways[i].precheck.0), ToInt(gateways[i].precheck.1)) !in db.logs
    ensures var sid := ToInt(gateways[i].precheck.0);
      var mid := ToInt(gateways[i].precheck.1);
      Reconcile(gateways, db, cfg)
        == Outcome(Lookups(sid, mid) + ErrorReport(cfg, SubscriptionLogNotFound(mid, sid)),
                   Failed(SubscriptionLogNotFound(mid, sid)))
  {
  }

  /** Every run ends either by logging its error or, after the three lookups
      of records that exist, by closing the gateway. */
  lemma RunEnds(gateways: seq<Gateway>, db: Db, cfg: Settings)
    ensures var o := Reconcile(gateways, db, cfg);
      && o.steps != []
      && (o.verdict.Failed? ==> o.steps[|o.steps| - 1] == LogError(o.verdict.error))
      && (!o.verdict.Failed? ==> |o.steps| >= 4 && o.steps[|o.steps| - 1] == Close)
      && (!o.verdict.Failed? ==>
            exists sid, mid | (sid, mid) in db.logs ::
              && mid in db.members && sid in db.plans
              && o.steps[..3] == Lookups(sid, mid))
  {
    SettledRunFoundRecords(gateways, db, cfg);
    var chosen := FirstValid(gateways);
    if chosen.Some? && !EmptyString(gateways[chosen.value].code) {
      var g := gateways[chosen.value];
      var sid := ToInt(g.precheck.0);
      var mid := ToInt(g.precheck.1);
      if mid != 0 && mid in db.members && sid in db.plans && (sid, mid) in db.logs {
        var r := Transaction(g, sid, mid, db.plans[sid], db.logs[(sid, mid)], cfg);
        if r.verdict.Failed? {
          assert Reconcile(gateways, db, cfg) == Outcome(Lookups(sid, mid) + r.steps, r.verdict);
        }
      }
    }
  }

  /** `$subscription_info` as far as the script changes it in place. */
  class SubscriptionLog {
    const idSublog: int
    const endTime: int
    var paymentsPending: int
    var pendingDetails: StoredDetails

    function Row(): LogRow
      reads this
    {
      LogRow(idSublog, paymentsPending, pendingDetails, endTime)
    }

    constructor (row: LogRow)
      ensures Row() == row
    {
      idSublog := row.idSublog;
      endTime := row.endTime;
      paymentsPending := row.paymentsPending;
      pendingDetails := row.pendingDetails;
    }

    /** The one-off capture: unserialize, drop the first detail (the `foreach`
        always breaks after its first pass), maybe decrement the counter,
        store the rest back. Reports false when nothing was pending. */
    method ConsumePending() returns (consumed: bool)
      modifies this
      ensures consumed <==> Unserialize(old(Row()).pendingDetails) != []
      ensures Row() == if consumed then ConsumeFirst(old(Row())) else old(Row())
    {
      var realDetails := Unserialize(pendingDetails);
      if realDetails == [] {
        return false;
      }
      var detail := realDetails[0].1;
      realDetails := realDetails[1..];
      if detail.kind == "payback" && paymentsPending != 0 {
        paymentsPending := paymentsPending - 1;
      }
      pendingDetails := if realDetails == [] then Blank else Serialized(realDetails);
      consumed := true;
    }
  }

  /** The transaction branches of the script, on the loaded log row. */
  method HandleTransaction(g: Gateway, sid: int, mid: int, plan: Plan, row: LogRow, cfg: Settings)
    returns (r: Outcome)
    ensures r == Transaction(g, sid, mid, plan, row, cfg)
  {
    var info := new SubscriptionLog(row);
    if g.isRefund {
      r := Outcome([HandleRefund(plan, info.Row(), mid, NumLength(cfg, sid))] + Receipt(cfg, RefundMail, true), Refunded);
    } else if g.isPayment || g.isSubscription {
      var steps := [];
      if !g.isSubscription {
        var ok := info.ConsumePending();
        if !ok {
          return Fail(cfg, [], NoOutstandingPayment(mid, sid));
        }
        steps := [UpdateNonrecurrent(info.Row())];
      }
      var notify := false;
      var grant := [];
      if plan.length == "F" {
        var found := FindDuration(plan.cost, g.cost);
        if found.Some? {
          notify := true;
          grant := [AddSubscription(sid, mid, Some(found.value))];
        }
      } else if FixedAccepted(plan.cost, g.cost) {
        notify := true;
        grant := [AddSubscription(sid, mid, None)];
      }
      r := Outcome(steps + grant + Receipt(cfg, NewSubscriptionMail, notify), Paid(notify));
    } else if g.isCancellation {
      r := Outcome(if g.hasProcessCancelation then [ProcessCancelation(sid, mid, plan, info.Row())] else [], Cancelled);
    } else {
      r := Outcome([], Ignored);
    }
  }

  /** The script, step by step, against its decision function. */
  method ProcessNotification(gateways: seq<Gateway>, db: Db, cfg: Settings) returns (o: Outcome)
    ensures o == Reconcile(gateways, db, cfg)
  {
    var chosen := SelectGateway(gateways);
    if chosen.None? || EmptyString(gateways[chosen.value].code) {
      return Fail(cfg, [], UnknownTransactionType);
    }
    var g := gateways[chosen.value];
    var sid := ToInt(g.precheck.0);
    var mid := ToInt(g.precheck.1);
    if mid == 0 {
      return Fail(cfg, [], EmptyMember);
    }
    if mid !in db.members {
      return Fail(cfg, [LookupMember(mid)], MemberNotFound(mid));
    }
    if sid !in db.plans {
      return Fail(cfg, [LookupMember(mid), LookupPlan(sid)], SubscriptionNotFound(mid, sid));
    }
    if (sid, mid) !in db.logs {
      return Fail(cfg, Lookups(sid, mid), SubscriptionLogNotFound(mid, sid));
    }
    var r := HandleTransaction(g, sid, mid, db.plans[sid], db.logs[(sid, mid)], cfg);
    if r.verdict.Failed? {
      o := Outcome(Lookups(sid, mid) + r.steps, r.verdict);
    } else {
      o := Outcome(Lookups(sid, mid) + r.steps + [Close], r.verdict);
    }
  }

  /** The request gets past every check to the transaction branches, with
      gateway `g` chosen and ids `sid`, `mid`. */
  ghost predicate Reaches(gateways: seq<Gateway>, db: Db, g: Gateway, sid: int, mid: int)
  {
    && FirstValid(gateways).Some?
    && gateways[FirstValid(gateways).value] == g
    && !EmptyString(g.code)
    && sid == ToInt(g.precheck.0)
    && mid == ToInt(g.precheck.1)
    && mid != 0
    && mid in db.members
    && sid in db.plans
    && (sid, mid) in db.logs
  }

  /** With no valid gateway the script reports the unknown transaction type
      and never looks up a member, plan or log row. */
  lemma NoGatewayFailsBeforeLookups(gateways: seq<Gateway>, db: Db, cfg: Settings)
    requires forall i | 0 <= i < |gateways| :: !gateways[i].isValid
    ensures Reconcile(gateways, db, cfg)
         == Outcome(ErrorReport(cfg, UnknownTransactionType), Failed(UnknownTransactionType))
  {
    assert FirstValid(gateways).None?;
    assert [] + ErrorReport(cfg, UnknownTransactionType) == ErrorReport(cfg, UnknownTransactionType);
  }

  /** A zero (or missing) member id ends in the empty-member error, before any lookup. */
  lemma ZeroMemberFailsBeforeLookups(gateways: seq<Gateway>, db: Db, cfg: Settings, i: nat)
    requires FirstValid(gateways) == Some(i)
    requires !EmptyString(gateways[i].code)
    requires ToInt(gateways[i].precheck.1) == 0
    ensures Reconcile(gateways, db, cfg) == Outcome(ErrorReport(cfg, EmptyMember), Failed(EmptyMember))
  {
    assert [] + ErrorReport(cfg, EmptyMember) == ErrorReport(cfg, EmptyMember);
  }

  /** The classification precedence, as the verdict it yields. */
  lemma ClassificationOrder(gateways: seq<Gateway>, db: Db, cfg: Settings, g: Gateway, sid: int, mid: int)
    requires Reaches(gateways, db, g, sid, mid)
    ensures var v := Reconcile(gateways, db, cfg).verdict;
      && (v == Refunded <==> g.isRefund)
      && ((v.Paid? || v == Failed(NoOutstandingPayment(mid, sid)))
          <==> !g.isRefund && (g.isPayment || g.isSubscription))
      && (v == Cancelled <==> !g.isRefund && !g.isPayment && !g.isSubscription && g.isCancellation)
      && (v == Ignored <==> !g.isRefund && !g.isPayment && !g.isSubscription && !g.isCancellation)
  {
  }

  /** An unrecognised transaction changes nothing: only the lookups and `close()`. */
  lemma IgnoredChangesNothing(gateways: seq<Gateway>, db: Db, cfg: Settings, g: Gateway, sid: int, mid: int)
    requires Reaches(gateways, db, g, sid, mid)
    requires !g.isRefund && !g.isPayment && !g.isSubscription && !g.isCancellation
    ensures Reconcile(gateways, db, cfg) == Outcome(Lookups(sid, mid) + [Close], Ignored)
  {
    assert Lookups(sid, mid) + [] == Lookups(sid, mid);
  }

  /** A refund only hands the row to the refund handler (and maybe mails):
      no pending detail is consumed and no subscription is added. */
  lemma RefundTouchesNoPendingOrCost(gateways: seq<Gateway>, db: Db, cfg: Settings, g: Gateway, sid: int, mid: int)
    requires Reaches(gateways, db, g, sid, mid)
    requires g.isRefund
    ensures var o := Reconcile(gateways, db, cfg);
      && o.verdict == Refunded
      && o.steps == Lookups(sid, mid)
                    + [HandleRefund(db.plans[sid], db.logs[(sid, mid)], mid, NumLength(cfg, sid))]
                    + Receipt(cfg, RefundMail, true) + [Close]
      && forall s | s in o.steps :: !s.UpdateNonrecurrent? && !s.AddSubscription?
  {
  }

  /** The log row with its pending bookkeeping replaced. */
  function WithPending(db: Db, sid: int, mid: int, pending: int, details: StoredDetails): Db
    requires (sid, mid) in db.logs
  {
    db.(logs := db.logs[(sid, mid) := db.logs[(sid, mid)].(paymentsPending := pending, pendingDetails := details)])
  }

  /** A recurring payment neither reads nor writes the pending list or
      counter: replacing them changes nothing in the outcome. */
  lemma RecurringIgnoresPending(gateways: seq<Gateway>, db: Db, cfg: Settings, g: Gateway, sid: int, mid: int,
                                pending: int, details: StoredDetails)
    requires Reaches(gateways, db, g, sid, mid)
    requires !g.isRefund && g.isSubscription
    ensures Reconcile(gateways, WithPending(db, sid, mid, pending, details), cfg) == Reconcile(gateways, db, cfg)
    ensures forall s | s in Reconcile(gateways, db, cfg).steps :: !s.UpdateNonrecurrent?
  {
    var db' := WithPending(db, sid, mid, pending, details);
    assert Reaches(gateways, db', g, sid, mid);
  }

  /** A one-off payment with nothing pending is an error, whatever else holds. */
  lemma OneOffWithoutPendingFails(gateways: seq<Gateway>, db: Db, cfg: Settings, g: Gateway, sid: int, mid: int)
    requires Reaches(gateways, db, g, sid, mid)
    requires !g.isRefund && g.isPayment && !g.isSubscription
    requires Unserialize(db.logs[(sid, mid)].pendingDetails) == []
    ensures var o := Reconcile(gateways, db, cfg);
      && o.verdict == Failed(NoOutstandingPayment(mid, sid))
      && o.steps == Lookups(sid, mid) + ErrorReport(cfg, NoOutstandingPayment(mid, sid))
  {
    assert [] + ErrorReport(cfg, NoOutstandingPayment(mid, sid)) == ErrorReport(cfg, NoOutstandingPayment(mid, sid));
  }

  /** A one-off payment stores the log with its first pending detail
      consumed, right after the lookups and before anything is added. */
  lemma OneOffConsumesFirstPending(gateways: seq<Gateway>, db: Db, cfg: Settings, g: Gateway, sid: int, mid: int)
    requires Reaches(gateways, db, g, sid, mid)
    requires !g.isRefund && g.isPayment && !g.isSubscription
    requires Unserialize(db.logs[(sid, mid)].pendingDetails) != []
    ensures var o := Reconcile(gateways, db, cfg);
      && o.verdict.Paid?
      && |o.steps| > 3
      && o.steps[3] == UpdateNonrecurrent(ConsumeFirst(db.logs[(sid, mid)]))
      && forall k | 0 <= k < |o.steps| && k != 3 :: !o.steps[k].UpdateNonrecurrent?
  {
    var o := Reconcile(gateways, db, cfg);
    var log := db.logs[(sid, mid)];
    var plan := db.plans[sid];
    var added := Acceptance(plan, g.cost);
    var grant := if added.Some? then [AddSubscription(sid, mid, added.value)] else [];
    var rest := grant + Receipt(cfg, NewSubscriptionMail, added.Some?) + [Close];
    assert o.steps == Lookups(sid, mid) + [UpdateNonrecurrent(ConsumeFirst(log))] + rest;
    assert forall s | s in rest :: !s.UpdateNonrecurrent?;
  }

  /** Processing is not idempotent: delivering the same one-off notification
      again, against the row the first delivery stored, consumes the next
      pending detail, or fails when the first delivery took the last one. */
  lemma {:induction false} ReplayConsumesAgain(gateways: seq<Gateway>, db: Db, cfg: Settings, g: Gateway, sid: int, mid: int)
    requires Reaches(gateways, db, g, sid, mid)
    requires !g.isRefund && g.isPayment && !g.isSubscription
    requires Unserialize(db.logs[(sid, mid)].pendingDetails) != []
    ensures var log := db.logs[(sid, mid)];
      var stored := ConsumeFirst(log);
      var again := Reconcile(gateways, db.(logs := db.logs[(sid, mid) := stored]), cfg);
      if |Unserialize(log.pendingDetails)| == 1 then again.verdict == Failed(NoOutstandingPayment(mid, sid))
      else
        && Unserialize(stored.pendingDetails) != []
        && again.steps[3] == UpdateNonrecurrent(ConsumeFirst(stored))
        && Unserialize(ConsumeFirst(stored).pendingDetails) == Unserialize(log.pendingDetails)[2..]
  {
    var log := db.logs[(sid, mid)];
    var stored := ConsumeFirst(log);
    var db2 := db.(logs := db.logs[(sid, mid) := stored]);
    assert db2.logs[(sid, mid)] == stored;
    assert Reaches(gateways, db2, g, sid, mid);
    if |Unserialize(log.pendingDetails)| == 1 {
      OneOffWithoutPendingFails(gateways, db2, cfg, g, sid, mid);
    } else {
      OneOffConsumesFirstPending(gateways, db2, cfg, g, sid, mid);
    }
  }

  /** A flexible plan adds a subscription exactly when some duration other
      than `fixed` is priced at the paid amount; the duration then is that
      of the last such key. */
  lemma FlexibleAcceptance(plan: Plan, paid: int)
    requires plan.length == "F"
    ensures Acceptance(plan, paid).Some? <==> exists i | 0 <= i < |plan.cost| :: PriceMatches(plan.cost[i], paid)
    ensures Acceptance(plan, paid).Some? ==>
      exists i | 0 <= i < |plan.cost| ::
        && PriceMatches(plan.cost[i], paid)
        && Acceptance(plan, paid).value == Some(DurationCode(plan.cost[i].0))
        && forall j | i < j < |plan.cost| :: !PriceMatches(plan.cost[j], paid)
  {
    if MatchedDuration(plan.cost, paid).Some? {
      MatchedDurationIsLastMatch(plan.cost, paid);
    }
  }

  /** A fixed plan adds a subscription exactly when a non-zero amount is at
      least the `fixed` price: overpayment is accepted, underpayment ignored. */
  lemma FixedAcceptance(plan: Plan, paid: int, price: int)
    requires plan.length != "F"
    requires CostOf(plan.cost, "fixed") == Some(price)
    ensures Acceptance(plan, paid) == (if paid != 0 && paid >= price then Some(None) else None)
  {
  }

  /** The steps of the purchase path, in order. */
  lemma PurchaseSteps(gateways: seq<Gateway>, db: Db, cfg: Settings, g: Gateway, sid: int, mid: int)
    requires Reaches(gateways, db, g, sid, mid)
    requires !g.isRefund && (g.isPayment || g.isSubscription)
    requires g.isSubscription || Unserialize(db.logs[(sid, mid)].pendingDetails) != []
    ensures var o := Reconcile(gateways, db, cfg);
      var added := Acceptance(db.plans[sid], g.cost);
      && o.verdict == Paid(added.Some?)
      && o.steps == Lookups(sid, mid)
           + (if g.isSubscription then [] else [UpdateNonrecurrent(ConsumeFirst(db.logs[(sid, mid)]))])
           + (if added.Some? then [AddSubscription(sid, mid, added.value)] else [])
           + Receipt(cfg, NewSubscriptionMail, added.Some?) + [Close]
  {
  }

  /** In a purchase trace, a grant step appears exactly when there is one to
      add, and the receipt exactly when it is added and `paid_email` is 2. */
  lemma PurchaseTraceSteps(sid: int, mid: int, consumed: seq<Step>, added: Option<Option<string>>, cfg: Settings)
    requires forall s | s in consumed :: s.UpdateNonrecurrent?
    ensures var steps := Lookups(sid, mid) + consumed
        + (if added.Some? then [AddSubscription(sid, mid, added.value)] else [])
        + Receipt(cfg, NewSubscriptionMail, added.Some?) + [Close];
      && ((exists s | s in steps :: s.AddSubscription?) <==> added.Some?)
      && (EmailAdmins(NewSubscriptionMail) in steps <==> cfg.paidEmail == 2 && added.Some?)
  {
    var grant := if added.Some? then [AddSubscription(sid, mid, added.value)] else [];
    var receipt := Receipt(cfg, NewSubscriptionMail, added.Some?);
    var pre := Lookups(sid, mid) + consumed;
    var steps := pre + grant + receipt + [Close];
    assert forall s | s in pre + [Close] :: !s.AddSubscription? && !s.EmailAdmins?;
    if added.Some? {
      assert steps[|pre|] == AddSubscription(sid, mid, added.value);
    }
  }

  /** On the purchase path a subscription is added exactly on acceptance,
      and the new-subscription receipt goes out exactly when it is added
      and `paid_email` is 2. */
  lemma ReceiptOnlyWhenAdded(gateways: seq<Gateway>, db: Db, cfg: Settings, g: Gateway, sid: int, mid: int)
    requires Reaches(gateways, db, g, sid, mid)
    requires !g.isRefund && (g.isPayment || g.isSubscription)
    requires g.isSubscription || Unserialize(db.logs[(sid, mid)].pendingDetails) != []
    ensures var o := Reconcile(gateways, db, cfg);
      var added := Acceptance(db.plans[sid], g.cost);
      && o.verdict == Paid(added.Some?)
      && ((exists s | s in o.steps :: s.AddSubscription?) <==> added.Some?)
      && (EmailAdmins(NewSubscriptionMail) in o.steps <==> cfg.paidEmail == 2 && added.Some?)
  {
    var consumed := if g.isSubscription then [] else [UpdateNonrecurrent(ConsumeFirst(db.logs[(sid, mid)]))];
    PurchaseSteps(gateways, db, cfg, g, sid, mid);
    PurchaseTraceSteps(sid, mid, consumed, Acceptance(db.plans[sid], g.cost), cfg);
  }

  /** The worked cases of a flexible plan {year: 100, month: 10, fixed: 0}. */
  lemma FlexibleExamples()
    ensures MatchedDuration([("year", 100), ("month", 10), ("fixed", 0)], 100) == Some("Y")
    ensures MatchedDuration([("year", 100), ("month", 10), ("fixed", 0)], 10) == Some("M")
    ensures MatchedDuration([("year", 100), ("month", 10), ("fixed", 0)], 99) == None
    ensures MatchedDuration([("year", 100), ("month", 10), ("fixed", 0)], 0) == None
    ensures MatchedDuration([("month", 10), ("week", 10)], 10) == Some("W")
  {
  }

  /** The worked cases of a fixed plan priced at 50. */
  lemma FixedExamples()
    ensures Acceptance(Plan("p", [("fixed", 50)], "M"), 60) == Some(None)
    ensures Acceptance(Plan("p", [("fixed", 50)], "M"), 50) == Some(None)
    ensures Acceptance(Plan("p", [("fixed", 50)], "M"), 49) == None
    ensures Acceptance(Plan("p", [("fixed", 50)], "M"), 0) == None
  {
  }
}

=== FILE: wrappers.dfy ===
/** Optional values, used wherever the PHP code reads a request field, an
    array entry or a database row that may be absent. */
module Wrappers {

  datatype Option<+T> = None | Some(value: T)
}
